=== FILE: README.md ===
# Thatsee content-recommendation page, modelled in Dafny

Thatsee is a single-page web application that recommends Korean cultural
content: movies, dramas, webtoons, novels and anime. This project models
its core as pure functions over immutable data and proves what the page
promises. It covers:

- the filter panel: category tabs, genre/platform/mood chips and the search
  button;
- the recommendation client: the prompt built from the filters, the
  provider's reply, parsing, and mapping each entry to a content item;
- the card: which streaming or reading service a card links to, the link
  itself, the platform badges and the tier badge;
- the page: the state held by the application component, the search flow,
  the results panel, the category filter over the three static sections,
  and the "see all" overlay;
- the shipped catalogue of thirteen items.

Modules follow the source files:

| module | file | models |
|---|---|---|
| `Wrappers` | wrappers.dfy | `Option` |
| `Text` | text.dfy | `toLowerCase`, `includes`, `replace(/\s/g, '')`, number-to-string |
| `Uri` | uri.dfy | `encodeURIComponent` (UTF-8 percent-encoding, as in section 18.2.6.5 of ECMA-262, 6th edition (ECMAScript 2015)) |
| `Types` | types.dfy | `types.ts` |
| `ContentCard` | content_card.dfy | `components/ContentCard.tsx` |
| `FilterSection` | filter_section.dfy | `components/FilterSection.tsx` |
| `GeminiService` | gemini_service.dfy | `services/geminiService.ts` |
| `Catalog` | catalog.dfy | `constants.ts` |
| `App` | app.dfy | `App.tsx` |

The outside world becomes parameters:

- The provider call is `ask: string -> ProviderReply`. The reply either
  failed (any throw) or carries an optional text.
- `JSON.parse` is `parse: string -> Parsed`. It yields an array of entries,
  some other JSON value, or a parse error. The model fixes only
  `JSON.parse("[]")`, which is the empty array.
- `Date.now()` and `Math.random()` are `now: nat -> nat` and
  `rand: nat -> real`. Both are indexed by the position of the entry being
  mapped.

Two places where the code does not do what its own declarations suggest:

- **Reply entries are not checked.** The response schema marks every field
  required (`services/geminiService.ts:45`), but the mapping at
  `services/geminiService.ts:54-65` copies the fields unchecked. Only the
  title is used before it is copied: a missing title makes `.replace` be
  called on `undefined`, and a non-string title has no `.replace` method, so
  either one throws and the search yields no items. A missing platform list
  is copied through as it is. In the model a title that is missing or not
  a string is `None`. The model lets `title`, `reason`,
  `description` and `platform` be absent, and keeps `category`, `tier` and
  `rating` to their schema types (see "Left out").
- **Category in the filter state.** `FilterState` in `types.ts` declares no
  `category` field. Even so, `App.tsx:15` and `components/FilterSection.tsx:53`
  write one and `services/geminiService.ts:13` reads it. The model gives
  `FilterState` a `category: Option<Category>`.

## Model

| member | source | states |
|---|---|---|
| Text.Lower | components/ContentCard.tsx:28 | lower-casing keeps the length and maps each character through `LowerChar` (ASCII letters only) |
| Text.LowerFacts | components/ContentCard.tsx:69 | lower-casing yields a lower-case string, leaves lower-case strings alone and is idempotent |
| Text.ContainsIffOccurs | components/ContentCard.tsx:28 | `includes` holds exactly when the key occurs at some position of the string |
| Text.AbsentHead | components/ContentCard.tsx:28 | a key whose first character does not occur in the string is not included |
| Text.JoinContainsPart | services/geminiService.ts:11-24 | the text assembled from pieces contains every piece |
| Text.RemoveWhitespace | services/geminiService.ts:58 | `replace(/\s/g, '')` leaves no whitespace, drops every whitespace character and keeps every other character with its multiplicity; a string with no whitespace is unchanged |
| Text.RemoveWhitespaceConcat | services/geminiService.ts:58 | removal works piece by piece: removing from `a + b` is removing from `a` followed by removing from `b`, so the kept characters keep their order |
| Text.NatToString | services/geminiService.ts:55 | a number's text is a non-empty string of decimal digits that reads back, most significant digit first, as the number; it has no leading zero (only 0 starts with `0`) and is one character long exactly for numbers below 10 |
| Text.NatToStringInjective | services/geminiService.ts:55 | different numbers have different decimal texts |
| Uri.EncodeURIComponent | components/ContentCard.tsx:22 | the encoded title uses only unreserved characters, `%` and upper-case hex digits, is at least as long as the title, and leaves an all-unreserved title unchanged |
| Uri.EncodeURIComponentChar | components/ContentCard.tsx:22 | a one-character string encodes exactly as `EncodeChar` encodes that character |
| Uri.EncodeURIComponentConcat | components/ContentCard.tsx:22 | encoding works piece by piece: the encoding of `a + b` is the encoding of `a` followed by that of `b`, so a title's encoding is its characters' encodings concatenated in order |
| Uri.PercentBytesEscapes | components/ContentCard.tsx:22 | escaping a byte sequence puts byte `k`'s `%XX` triple at position `3k`, and the triple reads back as the byte |
| Uri.EncodeChar | components/ContentCard.tsx:22 | one character encodes to itself exactly when it is unreserved; otherwise it becomes one `%XX` triple per UTF-8 byte, in order, each triple's two upper-case hex digits reading back as its byte |
| Uri.PercentByte | components/ContentCard.tsx:22 | a byte becomes `%` followed by two upper-case hex digits that read back as the byte |
| Uri.Utf8RoundTrip | components/ContentCard.tsx:22 | the UTF-8 bytes of a character decode back to its code point |
| Uri.HexDigitRoundTrip | components/ContentCard.tsx:22 | a hex digit reads back as its value |
| Types.CategoryNameRoundTrip | types.ts:4 | each category's name parses back to that category |
| Types.TierNameRoundTrip | types.ts:6 | each tier's letter parses back to that tier |
| Types.OptionListsWellFormed | types.ts:22-32 | there are 10 genres, 8 platforms and 8 moods, each list without duplicates or empty entries |
| ContentCard.CheckPlatformMeaning | components/ContentCard.tsx:25-30 | `checkPlatform` is false for a missing or empty platform list, and otherwise true iff some platform string, lower-cased, includes some keyword, lower-cased |
| ContentCard.CheckPlatformIgnoresOrder | components/ContentCard.tsx:25-30 | only the set of platform strings matters to `checkPlatform` |
| ContentCard.FirstIndex | components/ContentCard.tsx:33-62 | the first-match search returns the least index whose entry satisfies the test, or none exactly when no entry does |
| ContentCard.FirstIndexIsLeast | components/ContentCard.tsx:33-62 | an entry that matches, with no earlier entry matching, is the one the first-match search picks |
| ContentCard.ResolvePriority | components/ContentCard.tsx:33-62 | when row `i` of the category's link table is the first to match, the card links to that row's service, whatever later rows match |
| ContentCard.ResolveDefault | components/ContentCard.tsx:38-65 | when no row matches, webtoons go to Naver comics, novels to Ridibooks, anime to Laftel and movies and dramas to the web search |
| ContentCard.ResolveEndpointIsTable | components/ContentCard.tsx:33-65 | the if-chain of `getPlatformUrl` equals first-match-wins over the link table with the category default |
| ContentCard.WalkPriority | components/ContentCard.tsx:51-62 | walking a table top to bottom returns the first matching row's target |
| ContentCard.VideoIsWalk | components/ContentCard.tsx:51-61 | the video branch is a walk down the seven-row video table |
| ContentCard.WebtoonAndNovelTargets | components/ContentCard.tsx:33-48 | a webtoon links only to Kakao, Naver comics or Lezhin, and a novel only to Kakao, Naver series or Ridibooks |
| ContentCard.GenericSearchExactlyUnmatchedMovieOrDrama | components/ContentCard.tsx:51-65 | the web search is reached exactly by a movie or drama that matches no video keyword |
| ContentCard.ResolveIgnoresPlatformOrder | components/ContentCard.tsx:25-65 | reordering or repeating platform strings never changes the link |
| ContentCard.GetPlatformUrl | components/ContentCard.tsx:21-66 | the link is exactly `https://`, the resolved service's host and search path, then the encoded title, then for the generic search only a space, the category name and " 보러가기" (start, end and length are all pinned) |
| ContentCard.UrlNamesEndpoint | components/ContentCard.tsx:34-65 | reading the host back out of the link recovers the resolved service, so different services give different links |
| ContentCard.HostRoundTrip | components/ContentCard.tsx:34-65 | every service's host reads back as that service |
| ContentCard.FundingUrl | components/ContentCard.tsx:98 | the funding link is exactly `https://tumblbug.com/discover?query=` followed by the encoded title (start, end and length are pinned), so its host is tumblbug.com |
| ContentCard.BrandBadgesDistinct | components/ContentCard.tsx:73-82 | every brand badge is coloured, not gray, and the ten labels are pairwise distinct |
| ContentCard.BadgePriority | components/ContentCard.tsx:68-82 | the first badge rule whose English or Korean alias the lower-cased string includes decides the badge |
| ContentCard.BadgeUnmatched | components/ContentCard.tsx:70-71 | with no rule matching, the badge is gray and shows the platform string as given |
| ContentCard.GetPlatformBadgeIsTable | components/ContentCard.tsx:68-82 | the badge if-chain equals first-match-wins over the badge table |
| ContentCard.BadgeGrayIffUnmatched | components/ContentCard.tsx:68-82 | a badge is gray exactly when no rule matches, and then its label is the string itself |
| ContentCard.NaverBeatsKakao | components/ContentCard.tsx:77-78 | a string matching both the Naver rule and the Kakao rule, by English or Korean alias, is never labelled KAKAO |
| ContentCard.TierStyleLookup | components/ContentCard.tsx:14-19 | each tier letter gets its own style, the four styles are distinct, and any other key falls back to B's style |
| ContentCard.VisibleBadges | components/ContentCard.tsx:130-132 | a card shows one badge for each of the first three platform strings, in order, and none for a missing list |
| ContentCard.PlatformOptionsBranded | components/ContentCard.tsx:73-80 | each of the eight platform chips gets a brand badge (never gray), and no two get the same label |
| ContentCard.OptionBadgesLow | components/ContentCard.tsx:73-77 | the Netflix, Watcha, Tving and Naver Webtoon chips get the NETFLIX, WATCHA, TVING and NAVER badges |
| ContentCard.OptionBadgesHigh | components/ContentCard.tsx:76-80 | the Kakao Page, Ridibooks, Laftel and Disney+ chips get the KAKAO, RIDI, LAFTEL and Disney+ badges |
| FilterSection.ChipClick | components/FilterSection.tsx:28 | clicking a chip emits the empty string exactly when it was already selected, and the option otherwise |
| FilterSection.ClickEmptyChipClears | components/FilterSection.tsx:75 | a chip whose option is the empty string can only clear its field, since `val \|\| null` turns "" into null |
| FilterSection.SetField | components/FilterSection.tsx:75-89 | updating one field sets it and leaves the category and the other two fields alone |
| FilterSection.ClickChipEffect | components/FilterSection.tsx:28 | clicking the selected chip clears its field, and clicking another chip selects it; nothing else changes |
| FilterSection.ClickChipTwice | components/FilterSection.tsx:28 | two clicks on the same chip leave it selected if it was selected before and leave the field cleared otherwise; from an unset field they restore the whole state |
| FilterSection.AtMostOneHighlighted | components/FilterSection.tsx:30 | among distinct options at most one chip is highlighted |
| FilterSection.ClickTab | components/FilterSection.tsx:53 | clicking a tab sets the category to the tab's id and keeps genre, platform and mood |
| FilterSection.ClickTabIdempotent | components/FilterSection.tsx:53-55 | clicking a tab twice is the same as once, and the clicked tab is then active |
| FilterSection.ExactlyOneTabActive | components/FilterSection.tsx:12-19 | in every state exactly one of the six category tabs is active |
| GeminiService.CategoryShown | services/geminiService.ts:13 | no category shows the mixed-category placeholder, and a category shows its name |
| GeminiService.PromptAround | services/geminiService.ts:11-24 | the prompt states all four preferences, each with its value or placeholder |
| GeminiService.Prompt | services/geminiService.ts:11-24 | the prompt sent states all four preferences, each with its value or placeholder |
| GeminiService.UnsetFiltersPrompt | services/geminiService.ts:13-16 | with nothing selected every preference shows its placeholder |
| GeminiService.RecIdDeterminesIndex | services/geminiService.ts:55 | two recommendation ids that agree were made for the same index, whatever the timestamps |
| GeminiService.ImageUrl | services/geminiService.ts:58 | the image link starts with the picsum seed prefix and ends with `/400/600`, and the seed between them is the title with all whitespace removed |
| GeminiService.MapEntries | services/geminiService.ts:54-65 | mapping succeeds exactly when every entry has a title, and then yields one item per entry, in order |
| GeminiService.MappedItemsWellFormed | services/geminiService.ts:54-65 | the ids of one reply's items are pairwise distinct whatever the clock reads, and no image seed holds whitespace |
| GeminiService.Recommend | services/geminiService.ts:51-71 | a failed call gives no items, and whatever is returned has distinct ids and whitespace-free image seeds |
| GeminiService.GetRecommendations | services/geminiService.ts:8-72 | a failed provider call gives no items, and the ids are pairwise distinct |
| GeminiService.EmptyReplyGivesNothing | services/geminiService.ts:51 | a missing or empty reply text gives no items |
| GeminiService.FailuresGiveNothing | services/geminiService.ts:51-71 | a parse error, a non-array value or an entry without a title gives no items |
| GeminiService.SuccessfulReply | services/geminiService.ts:51-65 | an array whose entries all have titles gives one item per entry, in order, each mapped from its entry |
| Catalog.CatalogIdsUnique | constants.ts:3-88 | the catalogue has thirteen items with pairwise distinct ids |
| Catalog.CatalogFieldsValid | constants.ts:3-88 | every rating lies in [0, 5], every tier is S or A, and every item names a platform |
| Catalog.AnimeOnLaftelAndNetflixLinksToNetflix | constants.ts:22-27 | item t4, an anime on Laftel and Netflix, links to Netflix |
| Catalog.NovelOnNaverLinksToNaverSeries | constants.ts:16-21 | item t3, a novel on Naver Webtoon and Naver Series, links to Naver Series |
| Catalog.NaverPlatformsLinkToNaverSeries | components/ContentCard.tsx:42-44 | a novel on Naver Webtoon and Naver Series misses the Kakao row and links to Naver Series |
| Catalog.MovieOnCoupangLinksToCoupangPlay | constants.ts:61-66 | item tl4, a movie on Coupang Play, links to Coupang Play |
| Catalog.CoupangPlatformsLinkToCoupangPlay | components/ContentCard.tsx:51-56 | a movie on Coupang Play misses the four rows ahead of Coupang and links to Coupang Play |
| App.InitialState | App.tsx:15-21 | the page starts with no filters, no recommendations, not loading, not searched and no overlay |
| App.KeepCategory | App.tsx:49 | the filtered list is no longer than the input, and every kept item has the chosen category |
| App.KeepCategoryPositions | App.tsx:49 | the filtered list is the input's items of that category, at strictly ascending positions, and those are exactly the positions holding that category |
| App.FilterByCatSelects | App.tsx:47-50 | with a category chosen, filtering keeps exactly the items of that category, in their original order |
| App.FilterByCatNone | App.tsx:48 | with no category, filtering keeps everything |
| App.FilterByCatEmpty | App.tsx:47-50 | the filtered list is empty exactly when no item has the chosen category |
| App.HandleExpand | App.tsx:36-39 | the overlay gets the title and the items twice over: twice the length, both halves equal to the input, doubled multiset; nothing else changes |
| App.CloseExpand | App.tsx:41-44 | closing removes the overlay and changes nothing else |
| App.ExpandThenClose | App.tsx:36-44 | opening then closing the overlay is the same as closing it, and returns to the start when no overlay was open |
| App.ModalKeyDeterminesPosition | App.tsx:174-175 | two equal overlay card keys come from the same position and the same id |
| App.ModalKeysDistinct | App.tsx:174-175 | the overlay's card keys are pairwise distinct, even though every item appears twice |
| App.BeginSearch | App.tsx:24-25 | starting a search sets loading and searched and nothing else |
| App.FinishSearch | App.tsx:32-33 | finishing a search stores the results, clears loading and changes nothing else |
| App.HandleSearch | App.tsx:23-34 | after a search the results are the client's answer for the current filters, loading is off, searched is on, and the filters and overlay are unchanged |
| App.ResultsPanelCases | App.tsx:72-105 | the results panel is hidden exactly before the first search; it shows placeholders while loading, the failure message when done with no results, and the cards otherwise |
| App.SearchShowsResults | App.tsx:81-103 | while a search runs the panel shows the analysing heading with four placeholders and the button is inert; afterwards it shows the results heading with the cards or the failure message |
| App.ProviderFailureShowsMessage | App.tsx:99-103 | when the provider call fails, the panel shows the failure message |
| App.StaticSectionsShown | App.tsx:112-146 | each section is shown exactly when its filtered list is non-empty, and then lists that list; the no-data note shows exactly when no section does |
| App.StaticSectionsMatchCategory | App.tsx:112-138 | with a category chosen, every card in every section has that category |
| App.ExpandSection | App.tsx:117 | opening a section's overlay lists its cards twice under the section's overlay title |
| App.InitialScreen | App.tsx:15-146 | on first load the results panel is hidden, no overlay is open, and all three sections show the whole catalogue |
| App.NovelAndDramaSelections | App.tsx:47-138 | choosing Novel shows only the trending item t3 and the funding item f3, with no tier-list section; choosing Drama shows no funding section |
| App.NoDataNoteNeverShows | App.tsx:141-146 | with the shipped catalogue every category has a trending item, so the no-data note never shows |

## Left out

- Text.Lower: lower-cases ASCII letters only. JavaScript's `toLowerCase`
  also maps other scripts' upper-case letters. Every keyword and catalogue
  string is ASCII or Hangul, and Hangul has no case.
- The network call to the provider, its model name and its response
  schema are not modelled. `ask` stands in for the call, and a throw from
  it is `ProviderFailed`.
- `JSON.parse` is a parameter. Entries are assumed to follow the response
  schema for `category`, `tier` and `rating`. A missing or out-of-schema
  value of these three is not represented, although the code would copy it
  through. `rating` is a real number, not a double.
- `Date.now()` and `Math.random()` are parameters. The wall clock moving
  during the map is represented by `now(i)` differing between entries.
- Strings are sequences of Unicode scalar values. A lone surrogate, on
  which `encodeURIComponent` throws, cannot be represented.
- `console.error`, `window.open`, the `setTimeout` scroll and
  `document.body.style.overflow` are side effects with no bearing on state.
  They are left out.
- Rendering is left out: JSX markup, CSS classes other than the badge and
  tier styles, animations and hover state. So are the Header, Hero, Footer
  and SectionRow components, which only lay out what the model computes.
- Two searches running at once, with the later finishing first, are not
  modelled. `HandleSearch` runs one search to completion.
- ContentCard.TierStyleLookup: only typed tiers are looked up. In
  JavaScript, `tierColor[item.tier]` on a key such as `"constructor"` would
  read an inherited property. `TierStyle` treats every key outside S, A, B
  and C as unknown.

=== FILE: app.dfy ===
/** The page: its state, the transitions the filter panel, the search
    button and the "see all" overlay cause, and what each state shows. */
module App {
  import opened Wrappers
  import opened Text
  import opened Types
  import opened FilterSection
  import opened GeminiService
  import opened Catalog

  /* ---------------------------------------------------------------------
     State
     --------------------------------------------------------------------- */

  /** The "see all" overlay: its heading and the cards it lists. */
  datatype Expanded = Expanded(title: string, items: seq<ContentItem>)

  datatype AppState = AppState(
    filters: FilterState,
    recommendations: seq<ContentItem>,
    loading: bool,
    hasSearched: bool,
    expanded: Option<Expanded>)

  /** The state the page starts in. */
  function InitialState(): (s: AppState)
    ensures s.filters.category.None? && s.filters.genre.None?
    ensures s.filters.platform.None? && s.filters.mood.None?
    ensures s.recommendations == [] && !s.loading && !s.hasSearched
    ensures s.expanded.None?
  {
    AppState(FilterState(None, None, None, None), [], false, false, None)
  }

  /* ---------------------------------------------------------------------
     Category filter over the static collections
     --------------------------------------------------------------------- */

  /** `items.filter(item => item.category === c)`. */
  function KeepCategory(items: seq<ContentItem>, c: Category): (r: seq<ContentItem>)
    ensures |r| <= |items|
    ensures forall k :: 0 <= k < |r| ==> r[k].category == c
  {
    if |items| == 0 then []
    else if items[0].category == c then [items[0]] + KeepCategory(items[1..], c)
    else KeepCategory(items[1..], c)
  }

  /** `filterByCat`: no category keeps everything. */
  function FilterByCat(items: seq<ContentItem>, category: Option<Category>): seq<ContentItem> {
    match category
    case None => items
    case Some(c) => KeepCategory(items, c)
  }

  /** `r` lists `items` at the ascending positions `idx`, and those are
      exactly the positions whose item has category `c`. */
  ghost predicate PicksCategory(r: seq<ContentItem>, items: seq<ContentItem>, c: Category, idx: seq<int>) {
    && |idx| == |r|
    && (forall k :: 0 <= k < |idx| ==> 0 <= idx[k] < |items| && items[idx[k]] == r[k])
    && (forall k, l :: 0 <= k < l < |idx| ==> idx[k] < idx[l])
    && (forall i :: 0 <= i < |items| ==> (items[i].category == c <==> i in idx))
  }

  /** Every position moved one place to the right. */
  function Shift(idx: seq<int>): (r: seq<int>)
    ensures |r| == |idx| && forall k :: 0 <= k < |idx| ==> r[k] == idx[k] + 1
  {
    seq(|idx|, k requires 0 <= k < |idx| => idx[k] + 1)
  }

  /** The positions of the tail, moved past the head, are the head's
      positions other than 0. */
  lemma ShiftPositions(items: seq<ContentItem>, c: Category, rest: seq<int>)
    requires |items| > 0
    requires PicksCategory(KeepCategory(items[1..], c), items[1..], c, rest)
    ensures forall k :: 0 <= k < |rest| ==> 1 <= Shift(rest)[k] < |items| && items[Shift(rest)[k]] == KeepCategory(items[1..], c)[k]
    ensures forall i :: 1 <= i < |items| ==> (items[i].category == c <==> i in Shift(rest))
  {
    var tail := items[1..];
    var shifted := Shift(rest);
    forall k | 0 <= k < |rest|
      ensures 1 <= shifted[k] < |items| && items[shifted[k]] == KeepCategory(tail, c)[k]
    {
      assert items[shifted[k]] == tail[rest[k]];
    }
    forall i | 1 <= i < |items| ensures items[i].category == c <==> i in shifted {
      ShiftMember(items, c, rest, i);
    }
  }

  /** A position past the head is among the shifted tail positions exactly
      when the position before it is among the tail positions. */
  lemma ShiftMember(items: seq<ContentItem>, c: Category, rest: seq<int>, i: int)
    requires 1 <= i < |items|
    requires forall j :: 0 <= j < |items| - 1 ==> (items[1..][j].category == c <==> j in rest)
    ensures items[i].category == c <==> i in Shift(rest)
  {
    var shifted := Shift(rest);
    assert items[i] == items[1..][i - 1];
    if i in shifted {
      var k :| 0 <= k < |shifted| && shifted[k] == i;
      assert rest[k] == i - 1;
    }
    if i - 1 in rest {
      var k :| 0 <= k < |rest| && rest[k] == i - 1;
      assert shifted[k] == i;
    }
  }

  /** Moving ascending non-negative positions right keeps them ascending and
      puts them all after 0. */
  lemma ShiftAscending(rest: seq<int>)
    requires forall k :: 0 <= k < |rest| ==> 0 <= rest[k]
    requires forall k, l :: 0 <= k < l < |rest| ==> rest[k] < rest[l]
    ensures forall k, l :: 0 <= k < l < |[0] + Shift(rest)| ==> ([0] + Shift(rest))[k] < ([0] + Shift(rest))[l]
  {
    var idx := [0] + Shift(rest);
    forall k, l | 0 <= k < l < |idx| ensures idx[k] < idx[l] {
      assert idx[l] == rest[l - 1] + 1;
      if k > 0 {
        assert idx[k] == rest[k - 1] + 1;
      }
    }
  }

  /** A head of category `c` is picked at position 0, before the tail's
      positions. */
  lemma PickHead(items: seq<ContentItem>, c: Category, rest: seq<int>)
    requires |items| > 0 && items[0].category == c
    requires PicksCategory(KeepCategory(items[1..], c), items[1..], c, rest)
    ensures PicksCategory(KeepCategory(items, c), items, c, [0] + Shift(rest))
  {
    ShiftAscending(rest);
    ShiftPositions(items, c, rest);
    var shifted := Shift(rest);
    var idx := [0] + shifted;
    var tailKept := KeepCategory(items[1..], c);
    var r := KeepCategory(items, c);
    assert r == [items[0]] + tailKept;
    forall k | 0 <= k < |idx| ensures 0 <= idx[k] < |items| && items[idx[k]] == r[k] {
      if k > 0 {
        assert idx[k] == shifted[k - 1] && r[k] == tailKept[k - 1];
      }
    }
    forall i | 0 <= i < |items| ensures items[i].category == c <==> i in idx {
      if i > 0 {
        assert i in idx <==> i in shifted;
      }
    }
  }

  /** A head of another category is skipped. */
  lemma SkipHead(items: seq<ContentItem>, c: Category, rest: seq<int>)
    requires |items| > 0 && items[0].category != c
    requires PicksCategory(KeepCategory(items[1..], c), items[1..], c, rest)
    ensures PicksCategory(KeepCategory(items, c), items, c, Shift(rest))
  {
    ShiftPositions(items, c, rest);
    assert 0 !in Shift(rest);
    forall k, l | 0 <= k < l < |rest| ensures Shift(rest)[k] < Shift(rest)[l] {
    }
  }

  lemma {:induction false} KeepCategoryPositions(items: seq<ContentItem>, c: Category)
    returns (idx: seq<int>)
    ensures PicksCategory(KeepCategory(items, c), items, c, idx)
    decreases |items|
  {
    if |items| == 0 {
      idx := [];
    } else {
      var rest := KeepCategoryPositions(items[1..], c);
      if items[0].category == c {
        PickHead(items, c, rest);
        idx := [0] + Shift(rest);
      } else {
        SkipHead(items, c, rest);
        idx := Shift(rest);
      }
    }
  }

  /** With a category selected, the filter keeps exactly the items of that
      category, in their original order. */
  lemma FilterByCatSelects(items: seq<ContentItem>, c: Category)
    ensures exists idx :: PicksCategory(FilterByCat(items, Some(c)), items, c, idx)
  {
    var idx := KeepCategoryPositions(items, c);
    assert PicksCategory(FilterByCat(items, Some(c)), items, c, idx);
  }

  /** Without a category the filter changes nothing. */
  lemma FilterByCatNone(items: seq<ContentItem>)
    ensures FilterByCat(items, None) == items
  {
  }

  /** The filter keeps something exactly when some item has the category. */
  lemma FilterByCatEmpty(items: seq<ContentItem>, c: Category)
    ensures |FilterByCat(items, Some(c))| == 0 <==> forall i :: 0 <= i < |items| ==> items[i].category != c
  {
    var idx := KeepCategoryPositions(items, c);
    var r := FilterByCat(items, Some(c));
    if |r| > 0 {
      assert items[idx[0]].category == c;
    } else {
      forall i | 0 <= i < |items| ensures items[i].category != c {
        assert i !in idx;
      }
    }
  }

  /* ---------------------------------------------------------------------
     "See all" overlay
     --------------------------------------------------------------------- */

  /** `handleExpand`: the overlay lists the section's items twice over. */
  function HandleExpand(s: AppState, title: string, items: seq<ContentItem>): (t: AppState)
    ensures t.expanded.Some? && t.expanded.value.title == title
    ensures |t.expanded.value.items| == 2 * |items|
    ensures forall k :: 0 <= k < |items| ==>
      t.expanded.value.items[k] == items[k] && t.expanded.value.items[|items| + k] == items[k]
    ensures multiset(t.expanded.value.items) == multiset(items) + multiset(items)
    ensures t.(expanded := s.expanded) == s
  {
    s.(expanded := Some(Expanded(title, items + items)))
  }

  /** `closeExpand`: the overlay goes away and nothing else changes. */
  function CloseExpand(s: AppState): (t: AppState)
    ensures t.expanded.None?
    ensures t.(expanded := s.expanded) == s
  {
    s.(expanded := None)
  }

  /** Opening and then closing the overlay returns to a page without it,
      whatever was open before. */
  lemma ExpandThenClose(s: AppState, title: string, items: seq<ContentItem>)
    ensures CloseExpand(HandleExpand(s, title, items)) == CloseExpand(s)
    ensures s.expanded.None? ==> CloseExpand(HandleExpand(s, title, items)) == s
  {
  }

  /** The key of the overlay's `idx`-th card: `${item.id}-${idx}`. */
  function ModalKey(item: ContentItem, idx: nat): string {
    item.id + "-" + NatToString(idx)
  }

  /** The digits after the last dash are recovered from the whole. */
  lemma SplitAtLastDash(a: string, d: string, b: string, e: string)
    requires forall k :: 0 <= k < |d| ==> IsDigit(d[k])
    requires forall k :: 0 <= k < |e| ==> IsDigit(e[k])
    requires (a + "-") + d == (b + "-") + e
    ensures a == b && d == e
  {
    var s := (a + "-") + d;
    assert s[|a|] == '-';
    assert s[|b|] == '-';
    assert |a| == |b|;
    assert a == s[..|a|];
    assert b == s[..|b|];
    assert d == s[|a| + 1..];
    assert e == s[|b| + 1..];
  }

  /** Two overlay keys that agree belong to the same position and the
      same id; so the keys of one overlay are pairwise distinct even though
      every item appears twice. */
  lemma ModalKeyDeterminesPosition(x: ContentItem, i: nat, y: ContentItem, j: nat)
    requires ModalKey(x, i) == ModalKey(y, j)
    ensures i == j && x.id == y.id
  {
    SplitAtLastDash(x.id, NatToString(i), y.id, NatToString(j));
    NatToStringInjective(i, j);
  }

  lemma ModalKeysDistinct(items: seq<ContentItem>)
    ensures forall i, j :: 0 <= i < |items| && 0 <= j < |items| && ModalKey(items[i], i) == ModalKey(items[j], j) ==> i == j
  {
    forall i, j | 0 <= i < |items| && 0 <= j < |items| && ModalKey(items[i], i) == ModalKey(items[j], j)
      ensures i == j
    {
      ModalKeyDeterminesPosition(items[i], i, items[j], j);
    }
  }

  /* ---------------------------------------------------------------------
     Search
     --------------------------------------------------------------------- */

  /** What `handleSearch` sets before the request goes out. */
  function BeginSearch(s: AppState): (t: AppState)
    ensures t.loading && t.hasSearched
    ensures t.(loading := s.loading, hasSearched := s.hasSearched) == s
  {
    s.(loading := true, hasSearched := true)
  }

  /** What `handleSearch` sets once the request has answered. */
  function FinishSearch(s: AppState, results: seq<ContentItem>): (t: AppState)
    ensures t.recommendations == results && !t.loading
    ensures t.(recommendations := s.recommendations, loading := s.loading) == s
  {
    s.(recommendations := results, loading := false)
  }

  /** `handleSearch` as one step: the recommendations for the current
      filters replace the previous ones. */
  function HandleSearch(
    s: AppState, ask: string -> ProviderReply, parse: string -> Parsed,
    now: nat -> nat, rand: nat -> real): (t: AppState)
    ensures t.hasSearched && !t.loading
    ensures t.filters == s.filters && t.expanded == s.expanded
    ensures t.recommendations == GetRecommendations(s.filters, ask, parse, now, rand)
  {
    FinishSearch(BeginSearch(s), GetRecommendations(s.filters, ask, parse, now, rand))
  }

  /** The search button: `disabled={isLoading}`, so a click while a search
      is loading does nothing. */
  function ClickSearch(
    s: AppState, ask: string -> ProviderReply, parse: string -> Parsed,
    now: nat -> nat, rand: nat -> real): (t: AppState)
    ensures s.loading ==> t == s
    ensures !s.loading ==> t == HandleSearch(s, ask, parse, now, rand)
  {
    if SearchEnabled(s.loading) then HandleSearch(s, ask, parse, now, rand) else s
  }

  /* ---------------------------------------------------------------------
     Results panel
     --------------------------------------------------------------------- */

  const ANALYZING_HEADING: string := "AI가 사용자의 취향을 분석하고 있습니다..."
  const RESULTS_HEADING: string := "AI가 추천하는 오늘의 인생작"
  const LOAD_FAILED_MESSAGE: string := "추천 결과를 불러오지 못했습니다. 다시 시도해주세요."
  const SKELETON_COUNT: nat := 4

  datatype PanelBody = Skeleton(placeholders: nat) | Message(text: string) | Cards(items: seq<ContentItem>)

  datatype ResultsPanel = Hidden | Shown(heading: string, body: PanelBody)

  /** The results area below the filters. */
  function ResultsPanelOf(s: AppState): ResultsPanel {
    if !s.hasSearched then Hidden
    else if s.loading then Shown(ANALYZING_HEADING, Skeleton(SKELETON_COUNT))
    else if |s.recommendations| > 0 then Shown(RESULTS_HEADING, Cards(s.recommendations))
    else Shown(RESULTS_HEADING, Message(LOAD_FAILED_MESSAGE))
  }

  /** The panel appears after the first search; the failure message shows
      exactly when no search is loading and nothing was recommended; and
      otherwise, once loaded, there is one card per recommendation. */
  lemma ResultsPanelCases(s: AppState)
    ensures ResultsPanelOf(s).Hidden? <==> !s.hasSearched
    ensures (ResultsPanelOf(s).Shown? && ResultsPanelOf(s).body.Message?) <==>
      (s.hasSearched && !s.loading && |s.recommendations| == 0)
    ensures (ResultsPanelOf(s).Shown? && ResultsPanelOf(s).body.Skeleton?) <==> (s.hasSearched && s.loading)
    ensures ResultsPanelOf(s).Shown? && ResultsPanelOf(s).body.Cards? ==>
      ResultsPanelOf(s).body.items == s.recommendations && |s.recommendations| > 0
  {
  }

  /** While the request is out the panel shows the skeleton; once it has
      answered, the panel shows the cards of what came back or, if nothing
      came back, the failure message. */
  lemma SearchShowsResults(
    s: AppState, ask: string -> ProviderReply, parse: string -> Parsed,
    now: nat -> nat, rand: nat -> real)
    requires !s.loading
    ensures ResultsPanelOf(BeginSearch(s)) == Shown(ANALYZING_HEADING, Skeleton(SKELETON_COUNT))
    ensures ClickSearch(BeginSearch(s), ask, parse, now, rand) == BeginSearch(s)
    ensures var results := GetRecommendations(s.filters, ask, parse, now, rand);
      ResultsPanelOf(ClickSearch(s, ask, parse, now, rand)) ==
        if results == [] then Shown(RESULTS_HEADING, Message(LOAD_FAILED_MESSAGE))
        else Shown(RESULTS_HEADING, Cards(results))
  {
  }

  /** A provider failure ends in the failure message. */
  lemma ProviderFailureShowsMessage(
    s: AppState, ask: string -> ProviderReply, parse: string -> Parsed,
    now: nat -> nat, rand: nat -> real)
    requires !s.loading && ask(Prompt(s.filters)).ProviderFailed?
    ensures ResultsPanelOf(ClickSearch(s, ask, parse, now, rand)).body == Message(LOAD_FAILED_MESSAGE)
  {
  }

  /* ---------------------------------------------------------------------
     Static sections
     --------------------------------------------------------------------- */

  /** A row of static cards and the heading its "see all" overlay gets. */
  datatype Section = Section(
    title: string, subtitle: string, overlayTitle: string,
    items: seq<ContentItem>, isFunding: bool)

  const TRENDING_TITLE: string := "🔥 지금 실시간으로 뜨는 콘텐츠 TOP 10"
  const TIER_LIST_TITLE: string := "👑 이번 주 장르별 티어리스트 S등급"
  const FUNDING_TITLE: string := "🎁 내가 좋아할 만한 굿즈 펀딩"

  function TrendingSection(items: seq<ContentItem>): Section {
    Section(TRENDING_TITLE, "판매량 및 검색어 기준 급상승 중인 작품들", "실시간 인기 콘텐츠", items, false)
  }

  function TierListSection(items: seq<ContentItem>): Section {
    Section(TIER_LIST_TITLE, "커뮤니티 평판을 종합한 검증된 명작", "장르별 티어리스트", items, false)
  }

  function FundingSection(items: seq<ContentItem>): Section {
    Section(FUNDING_TITLE, "놓치면 후회하는 한정판 굿즈", "굿즈 펀딩", items, true)
  }

  /** The sections shown, in page order: each collection, filtered by the
      selected category, appears only when something is left of it. */
  function StaticSections(
    category: Option<Category>,
    trending: seq<ContentItem>, tierList: seq<ContentItem>, funding: seq<ContentItem>): seq<Section>
  {
    var t := FilterByCat(trending, category);
    var l := FilterByCat(tierList, category);
    var f := FilterByCat(funding, category);
    (if |t| > 0 then [TrendingSection(t)] else [])
    + (if |l| > 0 then [TierListSection(l)] else [])
    + (if |f| > 0 then [FundingSection(f)] else [])
  }

  /** The "no data for this category" note under the sections. */
  predicate ShowsNoDataNote(
    category: Option<Category>,
    trending: seq<ContentItem>, tierList: seq<ContentItem>, funding: seq<ContentItem>)
  {
    |FilterByCat(trending, category)| == 0
    && |FilterByCat(tierList, category)| == 0
    && |FilterByCat(funding, category)| == 0
  }

  /** Whether a section with the given title is on the page. */
  predicate HasSection(sections: seq<Section>, title: string) {
    exists k :: 0 <= k < |sections| && sections[k].title == title
  }

  /** Each section is shown exactly when its filtered collection is
      non-empty, and then lists that filtered collection; the note shows
      exactly when no section does. */
  lemma StaticSectionsShown(
    category: Option<Category>,
    trending: seq<ContentItem>, tierList: seq<ContentItem>, funding: seq<ContentItem>)
    ensures var secs := StaticSections(category, trending, tierList, funding);
      && (HasSection(secs, TRENDING_TITLE) <==> |FilterByCat(trending, category)| > 0)
      && (HasSection(secs, TIER_LIST_TITLE) <==> |FilterByCat(tierList, category)| > 0)
      && (HasSection(secs, FUNDING_TITLE) <==> |FilterByCat(funding, category)| > 0)
      && (forall k :: 0 <= k < |secs| ==>
            |secs[k].items| > 0
            && (secs[k].title == TRENDING_TITLE ==> secs[k].items == FilterByCat(trending, category))
            && (secs[k].title == TIER_LIST_TITLE ==> secs[k].items == FilterByCat(tierList, category))
            && (secs[k].title == FUNDING_TITLE ==> secs[k].items == FilterByCat(funding, category)))
      && (ShowsNoDataNote(category, trending, tierList, funding) <==> secs == [])
  {
    var t := FilterByCat(trending, category);
    var l := FilterByCat(tierList, category);
    var f := FilterByCat(funding, category);
    var secs := StaticSections(category, trending, tierList, funding);
    var a := if |t| > 0 then [TrendingSection(t)] else [];
    var b := if |l| > 0 then [TierListSection(l)] else [];
    var c := if |f| > 0 then [FundingSection(f)] else [];
    assert secs == a + b + c;
    assert TRENDING_TITLE != TIER_LIST_TITLE && TRENDING_TITLE != FUNDING_TITLE && TIER_LIST_TITLE != FUNDING_TITLE;
    if |t| > 0 { assert secs[0].title == TRENDING_TITLE; }
    if |l| > 0 { assert secs[|a|].title == TIER_LIST_TITLE; }
    if |f| > 0 { assert secs[|a| + |b|].title == FUNDING_TITLE; }
  }

  /** With a category selected, every card in every section has that
      category. */
  lemma StaticSectionsMatchCategory(
    c: Category, trending: seq<ContentItem>, tierList: seq<ContentItem>, funding: seq<ContentItem>)
    ensures var secs := StaticSections(Some(c), trending, tierList, funding);
      forall k, m :: 0 <= k < |secs| && 0 <= m < |secs[k].items| ==> secs[k].items[m].category == c
  {
    var t := KeepCategory(trending, c);
    var l := KeepCategory(tierList, c);
    var f := KeepCategory(funding, c);
    var a := if |t| > 0 then [TrendingSection(t)] else [];
    var b := if |l| > 0 then [TierListSection(l)] else [];
    var d := if |f| > 0 then [FundingSection(f)] else [];
    var secs := StaticSections(Some(c), trending, tierList, funding);
    assert secs == a + b + d;
    forall k, m | 0 <= k < |secs| && 0 <= m < |secs[k].items| ensures secs[k].items[m].category == c {
      assert secs[k] in a || secs[k] in b || secs[k] in d;
    }
  }

  /** The sections of the page in state `s`, over the shipped catalog. */
  function PageSections(s: AppState): seq<Section> {
    StaticSections(s.filters.category, TRENDING_ITEMS, TIER_LIST_ITEMS, FUNDING_ITEMS)
  }

  /** Opening a section's overlay lists that section's cards twice over
      under the section's overlay heading. */
  lemma ExpandSection(s: AppState, section: Section)
    ensures var t := HandleExpand(s, section.overlayTitle, section.items);
      t.expanded == Some(Expanded(section.overlayTitle, section.items + section.items))
  {
  }

  /* ---------------------------------------------------------------------
     The shipped catalog on the page
     --------------------------------------------------------------------- */

  /** The page starts with no results panel, no overlay, and all three
      collections shown in full. */
  lemma InitialScreen()
    ensures ResultsPanelOf(InitialState()) == Hidden
    ensures InitialState().expanded.None?
    ensures PageSections(InitialState()) ==
      [TrendingSection(TRENDING_ITEMS), TierListSection(TIER_LIST_ITEMS), FundingSection(FUNDING_ITEMS)]
  {
  }

  lemma NovelTrending()
    ensures FilterByCat(TRENDING_ITEMS, Some(Novel)) == [TRENDING_ITEMS[2]]
  {
  }

  lemma NovelTierList()
    ensures FilterByCat(TIER_LIST_ITEMS, Some(Novel)) == []
  {
    FilterByCatEmpty(TIER_LIST_ITEMS, Novel);
  }

  lemma NovelFunding()
    ensures FilterByCat(FUNDING_ITEMS, Some(Novel)) == [FUNDING_ITEMS[2]]
  {
  }

  lemma DramaFunding()
    ensures FilterByCat(FUNDING_ITEMS, Some(Drama)) == []
  {
    FilterByCatEmpty(FUNDING_ITEMS, Drama);
  }

  /** Selecting Novel keeps t3 of the trending row, nothing of the tier
      list and f3 of the funding row, so the page shows the trending and
      funding rows only; selecting Drama empties the funding row. */
  lemma NovelAndDramaSelections(s: AppState)
    requires s.filters.category == Some(Novel)
    ensures FilterByCat(TRENDING_ITEMS, Some(Novel)) == [TRENDING_ITEMS[2]]
    ensures FilterByCat(TIER_LIST_ITEMS, Some(Novel)) == []
    ensures FilterByCat(FUNDING_ITEMS, Some(Novel)) == [FUNDING_ITEMS[2]]
    ensures PageSections(s) == [TrendingSection([TRENDING_ITEMS[2]]), FundingSection([FUNDING_ITEMS[2]])]
    ensures FilterByCat(FUNDING_ITEMS, Some(Drama)) == []
  {
    NovelTrending();
    NovelTierList();
    NovelFunding();
    DramaFunding();
  }

  /** The trending row holds an item of every category, so whichever tab
      is chosen the "no data" note never shows with the shipped catalog. */
  lemma NoDataNoteNeverShows(category: Option<Category>)
    ensures !ShowsNoDataNote(category, TRENDING_ITEMS, TIER_LIST_ITEMS, FUNDING_ITEMS)
  {
    if category.Some? {
      var c := category.value;
      FilterByCatEmpty(TRENDING_ITEMS, c);
      var i := match c
        case Webtoon => 0
        case Drama => 1
        case Novel => 2
        case Anime => 3
        case Movie => 4;
      assert TRENDING_ITEMS[i].category == c;
    }
  }
}

=== FILE: catalog.dfy ===
/** The static catalog: the trending, tier-list and funding collections,
    and what the link resolver makes of some of their entries. */
module Catalog {
  import opened Wrappers
  import opened Text
  import opened Types
  import opened ContentCard

  const TRENDING_ITEMS: seq<ContentItem> := [
    ContentItem("t1", "나 혼자만 레벨업", Webtoon, "https://picsum.photos/seed/solo/400/600", S, 4.9,
      None, Some("재각성한 E급 헌터 성진우의 레이드 액션"), Some(["카카오페이지"]), Some(true)),
    ContentItem("t2", "오징어 게임", Drama, "https://picsum.photos/seed/squid/400/600", S, 4.8,
      None, Some("456억 원의 상금이 걸린 의문의 서바이벌"), Some(["넷플릭스"]), None),
    ContentItem("t3", "전지적 독자 시점", Novel, "https://picsum.photos/seed/omniscient/400/600", S, 4.9,
      None, Some("어느 날 자신이 읽던 소설의 내용대로 바뀌어 버린 세계"), Some(["네이버웹툰", "네이버시리즈"]), Some(true)),
    ContentItem("t4", "최애의 아이", Anime, "https://picsum.photos/seed/idol/400/600", A, 4.7,
      None, Some("지방 도시 산부인과 전문의와 최애 아이돌의 만남"), Some(["라프텔", "넷플릭스"]), Some(true)),
    ContentItem("t5", "파묘", Movie, "https://picsum.photos/seed/exhuma/400/600", A, 4.6,
      None, Some("거액의 돈을 받고 수상한 묘를 이장한 풍수사와 장의사"), Some(["티빙", "넷플릭스"]), None),
    ContentItem("t6", "화산귀환", Webtoon, "https://picsum.photos/seed/volcano/400/600", S, 4.9,
      None, Some("대화산파 13대 제자, 천하삼대검수 매화검존 청명"), Some(["네이버웹툰"]), Some(true))]

  const TIER_LIST_ITEMS: seq<ContentItem> := [
    ContentItem("tl1", "서울의 봄", Movie, "https://picsum.photos/seed/seoul/400/600", S, 4.9,
      None, Some("1979년 12월 12일, 수도 서울 군사반란 발생"), Some(["티빙", "디즈니+"]), None),
    ContentItem("tl2", "체인소 맨", Anime, "https://picsum.photos/seed/chainsaw/400/600", A, 4.7,
      None, Some("악마를 사냥하는 데블 헌터들의 이야기"), Some(["넷플릭스", "라프텔"]), Some(true)),
    ContentItem("tl3", "재벌집 막내아들", Drama, "https://picsum.photos/seed/rich/400/600", A, 4.5,
      None, Some("재벌 총수 일가의 오너리스크를 관리하는 비서가 회귀하다"), Some(["넷플릭스", "티빙", "디즈니+"]), None),
    ContentItem("tl4", "듄: 파트2", Movie, "https://picsum.photos/seed/dune/400/600", S, 4.8,
      None, Some("전 우주를 구원할 예언된 자의 운명"), Some(["쿠팡플레이"]), None)]

  const FUNDING_ITEMS: seq<ContentItem> := [
    ContentItem("f1", "화산귀환 향수 세트", Webtoon, "https://picsum.photos/seed/perfume/400/600", S, 5.0,
      None, Some("매화향이 가득한 청명의 향수"), Some(["네이버웹툰"]), Some(true)),
    ContentItem("f2", "슬램덩크 한정판 유니폼", Anime, "https://picsum.photos/seed/slam/400/600", S, 4.9,
      None, Some("북산고교 실제 유니폼 레플리카"), Some(["라프텔"]), Some(true)),
    ContentItem("f3", "전독시 회중시계", Novel, "https://picsum.photos/seed/watch/400/600", A, 4.8,
      None, Some("김독자의 시간을 기록하는 엔티크 시계"), Some(["네이버시리즈"]), Some(true))]

  /** The three collections together. */
  function AllItems(): seq<ContentItem> {
    TRENDING_ITEMS + TIER_LIST_ITEMS + FUNDING_ITEMS
  }

  /** Ids are unique across all three collections (thirteen items). */
  lemma CatalogIdsUnique()
    ensures |AllItems()| == 13
    ensures forall i, j :: 0 <= i < j < |AllItems()| ==> AllItems()[i].id != AllItems()[j].id
  {
  }

  /** Every rating lies in [0, 5], every tier is S or A, and every item
      names at least one platform. */
  lemma CatalogFieldsValid()
    ensures forall i :: 0 <= i < |AllItems()| ==> ValidRating(AllItems()[i].rating)
    ensures forall i :: 0 <= i < |AllItems()| ==> AllItems()[i].tier in {S, A}
    ensures forall i :: 0 <= i < |AllItems()| ==>
      AllItems()[i].platform.Some? && |AllItems()[i].platform.value| > 0
  {
  }

  /** Item t4 (an anime on Laftel and Netflix) links to Netflix, not
      Laftel: Netflix has the higher priority. */
  lemma AnimeOnLaftelAndNetflixLinksToNetflix()
    ensures ResolveEndpoint(TRENDING_ITEMS[3].category, TRENDING_ITEMS[3].platform) == Netflix
  {
    var ps := ["라프텔", "넷플릭스"];
    assert KeywordIn(ps[1], NETFLIX_KEYWORDS[1]);
    ResolvePriority(Anime, Some(ps), 0);
  }

  const T3_PLATFORMS: seq<string> := ["네이버웹툰", "네이버시리즈"]

  /** The one row ahead of Naver Series in the novel table (Kakao) does
      not match item t3's platform list. */
  lemma T3MissesEarlierRule(j: nat)
    requires j < 1
    ensures !RuleMatches(Some(T3_PLATFORMS), RulesFor(Novel)[j])
  {
    var keywords := RulesFor(Novel)[j].keywords;
    forall i | 0 <= i < |T3_PLATFORMS| ensures !AnyKeywordIn(T3_PLATFORMS[i], keywords) {
      T3PlatformNotKakao(i);
    }
    NoPlatformMatches(T3_PLATFORMS, keywords);
  }

  lemma T3PlatformNotKakao(i: nat)
    requires i < |T3_PLATFORMS|
    ensures !AnyKeywordIn(T3_PLATFORMS[i], KAKAO_KEYWORDS)
  {
    var p := T3_PLATFORMS[i];
    assert IsLowerCase(p);
    FamilyAbsent(p, KAKAO_KEYWORDS);
  }

  lemma T3IsNaver()
    ensures CheckPlatform(Some(T3_PLATFORMS), NAVER_KEYWORDS)
  {
    assert KeywordIn(T3_PLATFORMS[0], NAVER_KEYWORDS[1]);
    CheckPlatformMeaning(Some(T3_PLATFORMS), NAVER_KEYWORDS);
  }

  lemma NaverPlatformsLinkToNaverSeries()
    ensures ResolveEndpoint(Novel, Some(T3_PLATFORMS)) == NaverSeries
  {
    forall j | 0 <= j < 1 ensures !RuleMatches(Some(T3_PLATFORMS), RulesFor(Novel)[j]) {
      T3MissesEarlierRule(j);
    }
    T3IsNaver();
    ResolvePriority(Novel, Some(T3_PLATFORMS), 1);
  }

  /** Item t3 (a novel on Naver Webtoon and Naver Series) links to Naver
      Series. */
  lemma NovelOnNaverLinksToNaverSeries()
    ensures ResolveEndpoint(TRENDING_ITEMS[2].category, TRENDING_ITEMS[2].platform) == NaverSeries
  {
    var item := TRENDING_ITEMS[2];
    assert item.category == Novel && item.platform == Some(T3_PLATFORMS);
    NaverPlatformsLinkToNaverSeries();
  }

  const TL4_PLATFORMS: seq<string> := ["쿠팡플레이"]

  lemma TL4IsCoupang()
    ensures CheckPlatform(Some(TL4_PLATFORMS), COUPANG_KEYWORDS)
  {
    assert KeywordIn(TL4_PLATFORMS[0], COUPANG_KEYWORDS[1]);
    CheckPlatformMeaning(Some(TL4_PLATFORMS), COUPANG_KEYWORDS);
  }

  /** None of the four rows ahead of Coupang Play in the video table
      matches item tl4's platform list. */
  lemma TL4MissesEarlierRule(j: nat)
    requires j < 4
    ensures !RuleMatches(Some(TL4_PLATFORMS), RulesFor(Movie)[j])
  {
    var p := TL4_PLATFORMS[0];
    var keywords := RulesFor(Movie)[j].keywords;
    assert IsLowerCase(p);
    FamilyAbsent(p, keywords);
    NoPlatformMatches(TL4_PLATFORMS, keywords);
  }

  lemma CoupangPlatformsLinkToCoupangPlay()
    ensures ResolveEndpoint(Movie, Some(TL4_PLATFORMS)) == CoupangPlay
  {
    forall j | 0 <= j < 4 ensures !RuleMatches(Some(TL4_PLATFORMS), RulesFor(Movie)[j]) {
      TL4MissesEarlierRule(j);
    }
    TL4IsCoupang();
    ResolvePriority(Movie, Some(TL4_PLATFORMS), 4);
  }

  /** Item tl4 (a movie on Coupang Play) links to Coupang Play. */
  lemma MovieOnCoupangLinksToCoupangPlay()
    ensures ResolveEndpoint(TIER_LIST_ITEMS[3].category, TIER_LIST_ITEMS[3].platform) == CoupangPlay
  {
    var item := TIER_LIST_ITEMS[3];
    assert item.category == Movie && item.platform == Some(TL4_PLATFORMS);
    CoupangPlatformsLinkToCoupangPlay();
  }
}

=== FILE: content_card.dfy ===
/** The content card's pure logic: the outbound link for an item, chosen by
    a first-match-wins table keyed on the item's category and on
    case-insensitive platform-name matches; the brand badge for one platform
    string; the tier-badge style lookup; and the first-three badge slice. */
module ContentCard {
  import opened Wrappers
  import opened Text
  import opened Uri
  import opened Types

  /* ---------------------------------------------------------------------
     First match in an ordered table
     --------------------------------------------------------------------- */

  /** The index of the first entry of `xs` satisfying `p`, if any. */
  function FirstIndex<T>(xs: seq<T>, p: T -> bool): (r: Option<nat>)
    ensures r.Some? ==> r.value < |xs| && p(xs[r.value])
    ensures r.Some? ==> forall j :: 0 <= j < r.value ==> !p(xs[j])
    ensures r.None? <==> forall j :: 0 <= j < |xs| ==> !p(xs[j])
  {
    if xs == [] then None
    else if p(xs[0]) then Some(0)
    else
      match FirstIndex(xs[1..], p)
      case None => None
      case Some(k) => Some(k + 1)
  }

  /** The first entry that matches is the one `FirstIndex` finds. */
  lemma FirstIndexIsLeast<T>(xs: seq<T>, p: T -> bool, i: nat)
    requires i < |xs| && p(xs[i])
    requires forall j :: 0 <= j < i ==> !p(xs[j])
    ensures FirstIndex(xs, p) == Some(i)
  {
  }

  /* ---------------------------------------------------------------------
     checkPlatform
     --------------------------------------------------------------------- */

  /** `p.toLowerCase().includes(k.toLowerCase())`. */
  predicate KeywordIn(p: string, k: string) {
    Contains(Lower(p), Lower(k))
  }

  /** Some keyword of the list matches the platform string `p`
      (`keywords.some(...)`). */
  function AnyKeywordIn(p: string, keywords: seq<string>): bool {
    if keywords == [] then false
    else KeywordIn(p, keywords[0]) || AnyKeywordIn(p, keywords[1..])
  }

  lemma {:induction false} AnyKeywordInMeaning(p: string, keywords: seq<string>)
    ensures AnyKeywordIn(p, keywords) <==>
      exists j :: 0 <= j < |keywords| && KeywordIn(p, keywords[j])
    decreases |keywords|
  {
    if keywords != [] {
      AnyKeywordInMeaning(p, keywords[1..]);
      if exists j :: 0 <= j < |keywords| && KeywordIn(p, keywords[j]) {
        var j :| 0 <= j < |keywords| && KeywordIn(p, keywords[j]);
        if j > 0 {
          assert keywords[1..][j - 1] == keywords[j];
        }
      }
      if AnyKeywordIn(p, keywords[1..]) {
        var j :| 0 <= j < |keywords[1..]| && KeywordIn(p, keywords[1..][j]);
        assert KeywordIn(p, keywords[j + 1]);
      }
    }
  }

  /** Some platform string of the list matches some keyword
      (`item.platform.some(...)`). */
  function AnyPlatformMatches(ps: seq<string>, keywords: seq<string>): bool {
    if ps == [] then false
    else AnyKeywordIn(ps[0], keywords) || AnyPlatformMatches(ps[1..], keywords)
  }

  lemma {:induction false} AnyPlatformMatchesMeaning(ps: seq<string>, keywords: seq<string>)
    ensures AnyPlatformMatches(ps, keywords) <==>
      exists i :: 0 <= i < |ps| && AnyKeywordIn(ps[i], keywords)
    decreases |ps|
  {
    if ps != [] {
      AnyPlatformMatchesMeaning(ps[1..], keywords);
      if exists i :: 0 <= i < |ps| && AnyKeywordIn(ps[i], keywords) {
        var i :| 0 <= i < |ps| && AnyKeywordIn(ps[i], keywords);
        if i > 0 {
          assert ps[1..][i - 1] == ps[i];
        }
      }
      if AnyPlatformMatches(ps[1..], keywords) {
        var i :| 0 <= i < |ps[1..]| && AnyKeywordIn(ps[1..][i], keywords);
        assert AnyKeywordIn(ps[i + 1], keywords);
      }
    }
  }

  /** `checkPlatform(keywords)` on an item whose platform list is
      `platform`: false for a missing or empty list, otherwise true iff some
      platform string, lower-cased, contains some lower-cased keyword. */
  function CheckPlatform(platform: Option<seq<string>>, keywords: seq<string>): bool {
    if platform.None? || |platform.value| == 0 then false
    else AnyPlatformMatches(platform.value, keywords)
  }

  /** `checkPlatform` is false for a missing or empty platform list, and
      otherwise true iff some platform string, lower-cased, contains some
      lower-cased keyword. */
  lemma CheckPlatformMeaning(platform: Option<seq<string>>, keywords: seq<string>)
    ensures platform.None? ==> !CheckPlatform(platform, keywords)
    ensures platform == Some([]) ==> !CheckPlatform(platform, keywords)
    ensures CheckPlatform(platform, keywords) <==> (platform.Some? &&
      exists i, j :: 0 <= i < |platform.value| && 0 <= j < |keywords|
        && KeywordIn(platform.value[i], keywords[j]))
  {
    if platform.Some? {
      var ps := platform.value;
      AnyPlatformMatchesMeaning(ps, keywords);
      forall i | 0 <= i < |ps|
        ensures AnyKeywordIn(ps[i], keywords) <==>
          exists j :: 0 <= j < |keywords| && KeywordIn(ps[i], keywords[j])
      {
        AnyKeywordInMeaning(ps[i], keywords);
      }
    }
  }

  /** Neither keyword of a two-keyword family matches an already lower-case
      platform string that holds neither keyword's lower-cased first
      character. */
  lemma FamilyAbsent(p: string, keywords: seq<string>)
    requires IsLowerCase(p) && |keywords| == 2
    requires |keywords[0]| > 0 && LowerChar(keywords[0][0]) !in p
    requires |keywords[1]| > 0 && LowerChar(keywords[1][0]) !in p
    ensures !AnyKeywordIn(p, keywords)
  {
    LowerFacts(p);
    AbsentHead(Lower(p), Lower(keywords[0]));
    AbsentHead(Lower(p), Lower(keywords[1]));
    var rest := keywords[1..];
    assert rest[0] == keywords[1] && rest[1..] == [];
    assert !AnyKeywordIn(p, rest);
  }

  /** A list of platform strings none of which matches the keywords is not
      recognised as that platform. */
  lemma NoPlatformMatches(ps: seq<string>, keywords: seq<string>)
    requires forall i :: 0 <= i < |ps| ==> !AnyKeywordIn(ps[i], keywords)
    ensures !CheckPlatform(Some(ps), keywords)
  {
    AnyPlatformMatchesMeaning(ps, keywords);
  }

  /** Only the set of platform strings matters to `checkPlatform`, not their
      order or repetition. */
  lemma CheckPlatformIgnoresOrder(ps: seq<string>, qs: seq<string>, keywords: seq<string>)
    requires forall x :: x in ps <==> x in qs
    ensures CheckPlatform(Some(ps), keywords) == CheckPlatform(Some(qs), keywords)
  {
    CheckPlatformMeaning(Some(ps), keywords);
    CheckPlatformMeaning(Some(qs), keywords);
    if CheckPlatform(Some(ps), keywords) {
      var i, j :| 0 <= i < |ps| && 0 <= j < |keywords| && KeywordIn(ps[i], keywords[j]);
      assert ps[i] in qs;
      var i' :| 0 <= i' < |qs| && qs[i'] == ps[i];
      assert KeywordIn(qs[i'], keywords[j]);
    }
    if CheckPlatform(Some(qs), keywords) {
      var i, j :| 0 <= i < |qs| && 0 <= j < |keywords| && KeywordIn(qs[i], keywords[j]);
      assert qs[i] in ps;
      var i' :| 0 <= i' < |ps| && ps[i'] == qs[i];
      assert KeywordIn(ps[i'], keywords[j]);
    }
  }

  /* ---------------------------------------------------------------------
     getPlatformUrl
     --------------------------------------------------------------------- */

  /** The search endpoints an item can link to. */
  datatype Endpoint =
    | KakaoPage | NaverComic | Lezhin | NaverSeries | Ridibooks
    | Netflix | Watcha | Tving | DisneyPlus | CoupangPlay | Wavve | Laftel
    | GoogleSearch

  /** English and Korean brand keywords, as the link resolver spells them. */
  const KAKAO_KEYWORDS: seq<string> := ["Kakao", "카카오"]
  const NAVER_KEYWORDS: seq<string> := ["Naver", "네이버"]
  const LEZHIN_KEYWORDS: seq<string> := ["Lezhin", "레진"]
  const RIDI_KEYWORDS: seq<string> := ["Ridi", "리디"]
  const NETFLIX_KEYWORDS: seq<string> := ["Netflix", "넷플릭스"]
  const WATCHA_KEYWORDS: seq<string> := ["Watcha", "왓챠"]
  const TVING_KEYWORDS: seq<string> := ["Tving", "티빙"]
  const DISNEY_KEYWORDS: seq<string> := ["Disney", "디즈니"]
  const COUPANG_KEYWORDS: seq<string> := ["Coupang", "쿠팡"]
  const WAVVE_KEYWORDS: seq<string> := ["Wavve", "웨이브"]
  const LAFTEL_KEYWORDS: seq<string> := ["Laftel", "라프텔"]

  /** The video categories share one rule list. */
  predicate IsVideo(c: Category) {
    c == Movie || c == Drama || c == Anime
  }

  /** The webtoon block of `getPlatformUrl`. */
  function WebtoonEndpoint(platform: Option<seq<string>>): Endpoint {
    if CheckPlatform(platform, KAKAO_KEYWORDS) then KakaoPage
    else if CheckPlatform(platform, NAVER_KEYWORDS) then NaverComic
    else if CheckPlatform(platform, LEZHIN_KEYWORDS) then Lezhin
    else NaverComic
  }

  /** The novel block of `getPlatformUrl`. */
  function NovelEndpoint(platform: Option<seq<string>>): Endpoint {
    if CheckPlatform(platform, KAKAO_KEYWORDS) then KakaoPage
    else if CheckPlatform(platform, NAVER_KEYWORDS) then NaverSeries
    else if CheckPlatform(platform, RIDI_KEYWORDS) then Ridibooks
    else Ridibooks
  }

  /** The video block of `getPlatformUrl`: an anime that matches nothing
      goes to Laftel, a movie or drama falls through to the generic search. */
  function VideoEndpoint(category: Category, platform: Option<seq<string>>): Endpoint {
    if CheckPlatform(platform, NETFLIX_KEYWORDS) then Netflix
    else if CheckPlatform(platform, WATCHA_KEYWORDS) then Watcha
    else if CheckPlatform(platform, TVING_KEYWORDS) then Tving
    else if CheckPlatform(platform, DISNEY_KEYWORDS) then DisneyPlus
    else if CheckPlatform(platform, COUPANG_KEYWORDS) then CoupangPlay
    else if CheckPlatform(platform, WAVVE_KEYWORDS) then Wavve
    else if CheckPlatform(platform, LAFTEL_KEYWORDS) then Laftel
    else if category == Anime then Laftel
    else GoogleSearch
  }

  /** The endpoint `getPlatformUrl` links to: the category picks the block,
      and what no block returns reaches the generic web search. */
  function ResolveEndpoint(category: Category, platform: Option<seq<string>>): Endpoint {
    if category == Webtoon then WebtoonEndpoint(platform)
    else if category == Novel then NovelEndpoint(platform)
    else if IsVideo(category) then VideoEndpoint(category, platform)
    else GoogleSearch
  }

  /** One row of the link table: a keyword list and the endpoint it selects. */
  datatype LinkRule = LinkRule(keywords: seq<string>, target: Endpoint)

  /** The link table, category by category, in priority order. */
  function RulesFor(c: Category): seq<LinkRule> {
    match c
    case Webtoon =>
      [LinkRule(KAKAO_KEYWORDS, KakaoPage), LinkRule(NAVER_KEYWORDS, NaverComic),
       LinkRule(LEZHIN_KEYWORDS, Lezhin)]
    case Novel =>
      [LinkRule(KAKAO_KEYWORDS, KakaoPage), LinkRule(NAVER_KEYWORDS, NaverSeries),
       LinkRule(RIDI_KEYWORDS, Ridibooks)]
    case _ =>
      [LinkRule(NETFLIX_KEYWORDS, Netflix), LinkRule(WATCHA_KEYWORDS, Watcha),
       LinkRule(TVING_KEYWORDS, Tving), LinkRule(DISNEY_KEYWORDS, DisneyPlus),
       LinkRule(COUPANG_KEYWORDS, CoupangPlay), LinkRule(WAVVE_KEYWORDS, Wavve),
       LinkRule(LAFTEL_KEYWORDS, Laftel)]
  }

  /** Where a category goes when no row of its table matches. */
  function DefaultFor(c: Category): Endpoint {
    match c
    case Webtoon => NaverComic
    case Novel => Ridibooks
    case Anime => Laftel
    case _ => GoogleSearch
  }

  /** Whether a row matches the item's platform list. */
  predicate RuleMatches(platform: Option<seq<string>>, rule: LinkRule) {
    CheckPlatform(platform, rule.keywords)
  }

  /** The endpoint read off the table: the first matching row, else the
      category default. */
  function TableEndpoint(c: Category, platform: Option<seq<string>>): Endpoint {
    var rules := RulesFor(c);
    match FirstIndex(rules, r => RuleMatches(platform, r))
    case Some(i) => rules[i].target
    case None => DefaultFor(c)
  }

  /** Priority: when row `i` of the category's table is the first to match,
      the item links to that row's endpoint, whatever later rows match. */
  lemma ResolvePriority(c: Category, platform: Option<seq<string>>, i: nat)
    requires i < |RulesFor(c)| && RuleMatches(platform, RulesFor(c)[i])
    requires forall j :: 0 <= j < i ==> !RuleMatches(platform, RulesFor(c)[j])
    ensures ResolveEndpoint(c, platform) == RulesFor(c)[i].target
  {
    if IsVideo(c) {
      VideoPriority(c, platform, i);
    } else {
      var rules := RulesFor(c);
      if i == 0 {
      } else if i == 1 {
        assert !RuleMatches(platform, rules[0]);
      } else {
        assert !RuleMatches(platform, rules[0]);
        assert !RuleMatches(platform, rules[1]);
      }
    }
  }

  lemma VideoPriority(c: Category, platform: Option<seq<string>>, i: nat)
    requires IsVideo(c) && i < |RulesFor(c)| && RuleMatches(platform, RulesFor(c)[i])
    requires forall j :: 0 <= j < i ==> !RuleMatches(platform, RulesFor(c)[j])
    ensures VideoEndpoint(c, platform) == RulesFor(c)[i].target
  {
    VideoIsWalk(c, platform);
    WalkPriority(RulesFor(c), platform, DefaultFor(c), i);
  }

  /** Reading a table top to bottom: the first matching row's endpoint, or
      the fallback when none matches. */
  function Walk(rules: seq<LinkRule>, platform: Option<seq<string>>, fallback: Endpoint): Endpoint
    decreases |rules|
  {
    if |rules| == 0 then fallback
    else if RuleMatches(platform, rules[0]) then rules[0].target
    else Walk(rules[1..], platform, fallback)
  }

  /** The first matching row decides the walk. */
  lemma {:induction false} WalkPriority(
    rules: seq<LinkRule>, platform: Option<seq<string>>, fallback: Endpoint, i: nat)
    requires i < |rules| && RuleMatches(platform, rules[i])
    requires forall j :: 0 <= j < i ==> !RuleMatches(platform, rules[j])
    ensures Walk(rules, platform, fallback) == rules[i].target
    decreases i
  {
    if i > 0 {
      assert !RuleMatches(platform, rules[0]);
      forall j | 0 <= j < i - 1 ensures !RuleMatches(platform, rules[1..][j]) {
        assert rules[1..][j] == rules[j + 1];
      }
      WalkPriority(rules[1..], platform, fallback, i - 1);
    }
  }

  /** The video branch of the resolver is a walk down the video table. */
  lemma VideoIsWalk(c: Category, platform: Option<seq<string>>)
    requires IsVideo(c)
    ensures VideoEndpoint(c, platform) == Walk(RulesFor(c), platform, DefaultFor(c))
  {
    var rules := RulesFor(c);
    var d := DefaultFor(c);
    WalkFrom(rules, platform, d, 0);
    WalkTail(rules, platform, d);
  }

  /** One step of the walk, from row `k` on. */
  lemma WalkFrom(rules: seq<LinkRule>, platform: Option<seq<string>>, fallback: Endpoint, k: nat)
    requires k < |rules|
    ensures Walk(rules[k..], platform, fallback) ==
      if RuleMatches(platform, rules[k]) then rules[k].target else Walk(rules[k + 1..], platform, fallback)
  {
    assert rules[k..][0] == rules[k];
    assert rules[k..][1..] == rules[k + 1..];
  }

  /** The walk down a seven-row table, written out. */
  lemma WalkTail(rules: seq<LinkRule>, platform: Option<seq<string>>, d: Endpoint)
    requires |rules| == 7
    ensures Walk(rules[1..], platform, d) ==
      if RuleMatches(platform, rules[1]) then rules[1].target
      else if RuleMatches(platform, rules[2]) then rules[2].target
      else if RuleMatches(platform, rules[3]) then rules[3].target
      else if RuleMatches(platform, rules[4]) then rules[4].target
      else if RuleMatches(platform, rules[5]) then rules[5].target
      else if RuleMatches(platform, rules[6]) then rules[6].target
      else d
  {
    WalkFrom(rules, platform, d, 1);
    WalkFrom(rules, platform, d, 2);
    WalkFrom(rules, platform, d, 3);
    WalkFrom(rules, platform, d, 4);
    WalkFrom(rules, platform, d, 5);
    WalkFrom(rules, platform, d, 6);
    assert |rules[7..]| == 0;
  }

  /** Fallback: when no row of the category's table matches, the item links
      to the category default. */
  lemma ResolveDefault(c: Category, platform: Option<seq<string>>)
    requires forall j :: 0 <= j < |RulesFor(c)| ==> !RuleMatches(platform, RulesFor(c)[j])
    ensures ResolveEndpoint(c, platform) == DefaultFor(c)
  {
    var rules := RulesFor(c);
    assert !RuleMatches(platform, rules[0]);
    assert !RuleMatches(platform, rules[1]);
    assert !RuleMatches(platform, rules[2]);
    if IsVideo(c) {
      assert !RuleMatches(platform, rules[3]);
      assert !RuleMatches(platform, rules[4]);
      assert !RuleMatches(platform, rules[5]);
      assert !RuleMatches(platform, rules[6]);
    }
  }

  /** The branch-by-branch resolver is exactly the first-match-wins table. */
  lemma ResolveEndpointIsTable(c: Category, platform: Option<seq<string>>)
    ensures ResolveEndpoint(c, platform) == TableEndpoint(c, platform)
  {
    var rules := RulesFor(c);
    var p := (r: LinkRule) => RuleMatches(platform, r);
    var k := FirstIndex(rules, p);
    if k.Some? {
      forall j | 0 <= j < k.value ensures !RuleMatches(platform, rules[j]) {
        assert !p(rules[j]);
      }
      assert p(rules[k.value]);
      ResolvePriority(c, platform, k.value);
    } else {
      forall j | 0 <= j < |rules| ensures !RuleMatches(platform, rules[j]) {
        assert !p(rules[j]);
      }
      ResolveDefault(c, platform);
    }
  }

  /** A webtoon links to Kakao, Naver comics or Lezhin and never reaches the
      generic search; a novel links to Kakao, Naver series or Ridibooks. */
  lemma WebtoonAndNovelTargets(platform: Option<seq<string>>)
    ensures ResolveEndpoint(Webtoon, platform) in {KakaoPage, NaverComic, Lezhin}
    ensures ResolveEndpoint(Novel, platform) in {KakaoPage, NaverSeries, Ridibooks}
  {
  }

  /** The generic web search is reached exactly by a movie or drama whose
      platform list matches none of the video keyword lists. */
  lemma GenericSearchExactlyUnmatchedMovieOrDrama(c: Category, platform: Option<seq<string>>)
    ensures ResolveEndpoint(c, platform) == GoogleSearch <==>
      ((c == Movie || c == Drama)
       && forall j :: 0 <= j < |RulesFor(c)| ==> !RuleMatches(platform, RulesFor(c)[j]))
  {
    var rules := RulesFor(c);
    if forall j :: 0 <= j < |rules| ==> !RuleMatches(platform, rules[j]) {
      ResolveDefault(c, platform);
    } else {
      ResolveEndpointIsTable(c, platform);
      RuleTargetsNotSearch(c);
    }
  }

  /** No row of any table targets the generic search. */
  lemma RuleTargetsNotSearch(c: Category)
    ensures forall j :: 0 <= j < |RulesFor(c)| ==> RulesFor(c)[j].target != GoogleSearch
  {
  }

  /** Order-independence: the order (and repetition) of the item's platform
      strings never changes the link. */
  lemma ResolveIgnoresPlatformOrder(c: Category, ps: seq<string>, qs: seq<string>)
    requires forall x :: x in ps <==> x in qs
    ensures ResolveEndpoint(c, Some(ps)) == ResolveEndpoint(c, Some(qs))
  {
    if c == Webtoon {
      CheckPlatformIgnoresOrder(ps, qs, KAKAO_KEYWORDS);
      CheckPlatformIgnoresOrder(ps, qs, NAVER_KEYWORDS);
      CheckPlatformIgnoresOrder(ps, qs, LEZHIN_KEYWORDS);
    } else if c == Novel {
      CheckPlatformIgnoresOrder(ps, qs, KAKAO_KEYWORDS);
      CheckPlatformIgnoresOrder(ps, qs, NAVER_KEYWORDS);
      CheckPlatformIgnoresOrder(ps, qs, RIDI_KEYWORDS);
    } else {
      VideoIgnoresPlatformOrder(c, ps, qs);
    }
  }

  lemma VideoIgnoresPlatformOrder(c: Category, ps: seq<string>, qs: seq<string>)
    requires forall x :: x in ps <==> x in qs
    ensures VideoEndpoint(c, Some(ps)) == VideoEndpoint(c, Some(qs))
  {
    CheckPlatformIgnoresOrder(ps, qs, NETFLIX_KEYWORDS);
    CheckPlatformIgnoresOrder(ps, qs, WATCHA_KEYWORDS);
    CheckPlatformIgnoresOrder(ps, qs, TVING_KEYWORDS);
    CheckPlatformIgnoresOrder(ps, qs, DISNEY_KEYWORDS);
    CheckPlatformIgnoresOrder(ps, qs, COUPANG_KEYWORDS);
    CheckPlatformIgnoresOrder(ps, qs, WAVVE_KEYWORDS);
    CheckPlatformIgnoresOrder(ps, qs, LAFTEL_KEYWORDS);
  }

  /** The host each endpoint lives on. */
  function Host(e: Endpoint): (h: string)
    ensures |h| > 0 && '/' !in h
  {
    match e
    case KakaoPage => "page.kakao.com"
    case NaverComic => "comic.naver.com"
    case Lezhin => "www.lezhin.com"
    case NaverSeries => "series.naver.com"
    case Ridibooks => "ridibooks.com"
    case Netflix => "www.netflix.com"
    case Watcha => "watcha.com"
    case Tving => "www.tving.com"
    case DisneyPlus => "www.disneyplus.com"
    case CoupangPlay => "www.coupangplay.com"
    case Wavve => "www.wavve.com"
    case Laftel => "laftel.net"
    case GoogleSearch => "www.google.com"
  }

  /** The path and query up to the encoded title. */
  function SearchPath(e: Endpoint): (path: string)
    ensures |path| > 0 && path[0] == '/'
  {
    match e
    case KakaoPage => "/search?word="
    case NaverComic => "/search?keyword="
    case Lezhin => "/ko/search?q="
    case NaverSeries => "/search/search.series?t=all&q="
    case Ridibooks => "/search?q="
    case Netflix => "/search?q="
    case Watcha => "/search?query="
    case Tving => "/search/main?keyword="
    case DisneyPlus => "/search?q="
    case CoupangPlay => "/search?q="
    case Wavve => "/search/search?searchWord="
    case Laftel => "/search?keyword="
    case GoogleSearch => "/search?q="
  }

  /** The text after the encoded title: the generic search also names the
      category and asks to go and watch. */
  function UrlSuffix(e: Endpoint, category: Category): string {
    if e == GoogleSearch then " " + CategoryName(category) + " 보러가기" else ""
  }

  /** The link to endpoint `e` for an already encoded title:
      `https://`, the host, the search path, the title, the suffix. */
  function EndpointUrl(e: Endpoint, category: Category, encodedTitle: string): (url: string)
    ensures UrlHost(url) == Host(e)
    ensures StartsWith(url, "https://" + Host(e) + SearchPath(e))
    ensures EndsWith(url, encodedTitle + UrlSuffix(e, category))
    ensures |url| == |"https://" + Host(e) + SearchPath(e)| + |encodedTitle| + |UrlSuffix(e, category)|
    ensures Contains(url, encodedTitle)
    ensures e == GoogleSearch ==> EndsWith(url, encodedTitle + " " + CategoryName(category) + " 보러가기")
    ensures e != GoogleSearch ==> EndsWith(url, encodedTitle)
  {
    var tail := encodedTitle + UrlSuffix(e, category);
    var afterScheme := Host(e) + (SearchPath(e) + tail);
    var url := "https://" + afterScheme;
    StartsWithConcat("https://", afterScheme);
    DropConcat("https://", afterScheme);
    TakeUntilSlashOf(Host(e), SearchPath(e) + tail);
    ContainsPrefix(encodedTitle, UrlSuffix(e, category));
    ContainsExtendLeft(SearchPath(e), tail, encodedTitle);
    ContainsExtendLeft(Host(e), SearchPath(e) + tail, encodedTitle);
    ContainsExtendLeft("https://", afterScheme, encodedTitle);
    SplitAtTail("https://", Host(e), SearchPath(e), tail);
    SuffixShape(e, category, encodedTitle, url);
    url
  }

  /** What a link ends with, once its tail is known: the encoded title,
      followed on the generic search by the category and " 보러가기". */
  lemma SuffixShape(e: Endpoint, category: Category, encodedTitle: string, url: string)
    requires EndsWith(url, encodedTitle + UrlSuffix(e, category))
    ensures e == GoogleSearch ==> EndsWith(url, encodedTitle + " " + CategoryName(category) + " 보러가기")
    ensures e != GoogleSearch ==> EndsWith(url, encodedTitle)
  {
    if e == GoogleSearch {
      assert encodedTitle + UrlSuffix(e, category) == encodedTitle + " " + CategoryName(category) + " 보러가기";
    } else {
      assert encodedTitle + UrlSuffix(e, category) == encodedTitle;
    }
  }

  /** A link built front to back starts with its front parts and ends with
      its tail. */
  lemma SplitAtTail(scheme: string, host: string, path: string, tail: string)
    ensures StartsWith(scheme + (host + (path + tail)), scheme + host + path)
    ensures EndsWith(scheme + (host + (path + tail)), tail)
  {
    assert scheme + (host + (path + tail)) == (scheme + host + path) + tail;
    StartsWithConcat(scheme + host + path, tail);
    EndsWithConcat(scheme + host + path, tail);
  }

  /** `getPlatformUrl()` for an item with this category, platform list and
      title: the chosen endpoint's search page for the encoded title; the
      generic search also names the category and asks to go and watch. */
  function GetPlatformUrl(category: Category, platform: Option<seq<string>>, title: string): (url: string)
    ensures UrlHost(url) == Host(ResolveEndpoint(category, platform))
    ensures StartsWith(url, "https://" + Host(ResolveEndpoint(category, platform))
                            + SearchPath(ResolveEndpoint(category, platform)))
    ensures |url| == |"https://" + Host(ResolveEndpoint(category, platform))
                       + SearchPath(ResolveEndpoint(category, platform))|
                     + |EncodeURIComponent(title)| + |UrlSuffix(ResolveEndpoint(category, platform), category)|
    ensures Contains(url, EncodeURIComponent(title))
    ensures ResolveEndpoint(category, platform) == GoogleSearch ==>
              EndsWith(url, EncodeURIComponent(title) + " " + CategoryName(category) + " 보러가기")
    ensures ResolveEndpoint(category, platform) != GoogleSearch ==>
              EndsWith(url, EncodeURIComponent(title))
  {
    EndpointUrl(ResolveEndpoint(category, platform), category, EncodeURIComponent(title))
  }

  /** The characters of `s` before the first `/`. */
  function TakeUntilSlash(s: string): (r: string)
    ensures '/' !in r
  {
    if s == [] || s[0] == '/' then [] else [s[0]] + TakeUntilSlash(s[1..])
  }

  lemma {:induction false} TakeUntilSlashOf(h: string, rest: string)
    requires '/' !in h
    requires |rest| > 0 && rest[0] == '/'
    ensures TakeUntilSlash(h + rest) == h
    decreases |h|
  {
    if h != [] {
      assert (h + rest)[1..] == h[1..] + rest;
      TakeUntilSlashOf(h[1..], rest);
    }
  }

  /** The host part of an `https://` URL. */
  function UrlHost(url: string): string {
    if StartsWith(url, "https://") then TakeUntilSlash(url[8..]) else ""
  }

  /** Reads an endpoint back from a host name. */
  function EndpointOfHost(h: string): Option<Endpoint> {
    if h == Host(KakaoPage) then Some(KakaoPage)
    else if h == Host(NaverComic) then Some(NaverComic)
    else if h == Host(Lezhin) then Some(Lezhin)
    else if h == Host(NaverSeries) then Some(NaverSeries)
    else if h == Host(Ridibooks) then Some(Ridibooks)
    else if h == Host(Netflix) then Some(Netflix)
    else if h == Host(Watcha) then Some(Watcha)
    else if h == Host(Tving) then Some(Tving)
    else if h == Host(DisneyPlus) then Some(DisneyPlus)
    else if h == Host(CoupangPlay) then Some(CoupangPlay)
    else if h == Host(Wavve) then Some(Wavve)
    else if h == Host(Laftel) then Some(Laftel)
    else if h == Host(GoogleSearch) then Some(GoogleSearch)
    else None
  }

  /** Every endpoint's host reads back as that endpoint. */
  lemma HostRoundTrip(e: Endpoint)
    ensures EndpointOfHost(Host(e)) == Some(e)
  {
    if e in {KakaoPage, NaverComic, Lezhin, NaverSeries, Ridibooks} {
      BookHostRoundTrip(e);
    } else if e in {Netflix, Watcha, Tving, DisneyPlus} {
      StreamingHostRoundTrip(e);
    } else if e in {CoupangPlay, Wavve} {
      OtherStreamingHostRoundTrip(e);
    } else {
      RemainingHostRoundTrip(e);
    }
  }

  lemma BookHostRoundTrip(e: Endpoint)
    requires e in {KakaoPage, NaverComic, Lezhin, NaverSeries, Ridibooks}
    ensures EndpointOfHost(Host(e)) == Some(e)
  {
  }

  lemma StreamingHostRoundTrip(e: Endpoint)
    requires e in {Netflix, Watcha, Tving, DisneyPlus}
    ensures EndpointOfHost(Host(e)) == Some(e)
  {
  }

  lemma OtherStreamingHostRoundTrip(e: Endpoint)
    requires e in {CoupangPlay, Wavve}
    ensures EndpointOfHost(Host(e)) == Some(e)
  {
  }

  lemma RemainingHostRoundTrip(e: Endpoint)
    requires e in {Laftel, GoogleSearch}
    ensures EndpointOfHost(Host(e)) == Some(e)
  {
  }

  /** The link names the endpoint that was chosen: reading the host back
      out of the URL recovers it, so distinct endpoints give distinct
      links. */
  lemma UrlNamesEndpoint(category: Category, platform: Option<seq<string>>, title: string)
    ensures EndpointOfHost(UrlHost(GetPlatformUrl(category, platform, title)))
      == Some(ResolveEndpoint(category, platform))
  {
    HostRoundTrip(ResolveEndpoint(category, platform));
  }

  /** The funding button's link: the crowdfunding site's discovery search
      with the encoded title as the whole query. */
  function FundingUrl(title: string): (url: string)
    ensures UrlHost(url) == "tumblbug.com"
    ensures StartsWith(url, "https://" + "tumblbug.com" + "/discover?query=")
    ensures EndsWith(url, EncodeURIComponent(title))
    ensures |url| == |"https://" + "tumblbug.com" + "/discover?query="| + |EncodeURIComponent(title)|
    ensures Contains(url, EncodeURIComponent(title))
  {
    var afterScheme := "tumblbug.com" + ("/discover?query=" + EncodeURIComponent(title));
    StartsWithConcat("https://", afterScheme);
    DropConcat("https://", afterScheme);
    TakeUntilSlashOf("tumblbug.com", "/discover?query=" + EncodeURIComponent(title));
    ContainsPrefix(EncodeURIComponent(title), "");
    assert EncodeURIComponent(title) + "" == EncodeURIComponent(title);
    ContainsExtendLeft("/discover?query=", EncodeURIComponent(title), EncodeURIComponent(title));
    ContainsExtendLeft("tumblbug.com", "/discover?query=" + EncodeURIComponent(title), EncodeURIComponent(title));
    ContainsExtendLeft("https://", afterScheme, EncodeURIComponent(title));
    SplitAtTail("https://", "tumblbug.com", "/discover?query=", EncodeURIComponent(title));
    "https://" + afterScheme
  }

  /* ---------------------------------------------------------------------
     getPlatformBadge
     --------------------------------------------------------------------- */

  /** A rendered badge: its style classes and its caption (the text shown). */
  datatype Badge = Badge(style: string, caption: string)

  /** The neutral style of a platform string no rule recognises. */
  const GRAY_STYLE: string := "bg-gray-700 text-gray-200"

  /** One row of the badge table: an English and a Korean alias, both
      compared against the lower-cased platform string, and the badge. */
  datatype BadgeRule = BadgeRule(english: string, korean: string, badge: Badge)

  const NETFLIX_BADGE := BadgeRule("netflix", "넷플릭스", Badge("bg-[#E50914] text-white", "NETFLIX"))
  const WATCHA_BADGE := BadgeRule("watcha", "왓챠", Badge("bg-[#FF0558] text-white", "WATCHA"))
  const TVING_BADGE := BadgeRule("tving", "티빙", Badge("bg-[#FF153C] text-white", "TVING"))
  const DISNEY_BADGE := BadgeRule("disney", "디즈니", Badge("bg-[#113CCF] text-white", "Disney+"))
  const NAVER_BADGE := BadgeRule("naver", "네이버", Badge("bg-[#00D564] text-white", "NAVER"))
  const KAKAO_BADGE := BadgeRule("kakao", "카카오", Badge("bg-[#FEE500] text-black", "KAKAO"))
  const RIDI_BADGE := BadgeRule("ridi", "리디", Badge("bg-[#1F8CE6] text-white", "RIDI"))
  const LAFTEL_BADGE := BadgeRule("laftel", "라프텔", Badge("bg-[#816BFF] text-white", "LAFTEL"))
  const WAVVE_BADGE := BadgeRule("wavve", "웨이브", Badge("bg-[#1351f9] text-white", "wavve"))
  const COUPANG_BADGE := BadgeRule("coupang", "쿠팡", Badge("bg-[#343a40] text-white", "Coupang"))

  /** The badge table in the order the rules are tried. */
  const BADGE_RULES: seq<BadgeRule> := [
    NETFLIX_BADGE, WATCHA_BADGE, TVING_BADGE, DISNEY_BADGE, NAVER_BADGE,
    KAKAO_BADGE, RIDI_BADGE, LAFTEL_BADGE, WAVVE_BADGE, COUPANG_BADGE]

  /** `p.includes(english) || p.includes(korean)` on the lower-cased
      platform string `p`. */
  predicate BadgeMatches(p: string, rule: BadgeRule) {
    Contains(p, rule.english) || Contains(p, rule.korean)
  }

  /** `getPlatformBadge(platform)`, rule by rule: the first rule whose alias
      the lower-cased string contains gives the brand badge; otherwise the
      badge is gray and shows the string as it was given. */
  function GetPlatformBadge(platform: string): Badge {
    var p := Lower(platform);
    if BadgeMatches(p, NETFLIX_BADGE) then NETFLIX_BADGE.badge
    else if BadgeMatches(p, WATCHA_BADGE) then WATCHA_BADGE.badge
    else if BadgeMatches(p, TVING_BADGE) then TVING_BADGE.badge
    else if BadgeMatches(p, DISNEY_BADGE) then DISNEY_BADGE.badge
    else if BadgeMatches(p, NAVER_BADGE) then NAVER_BADGE.badge
    else if BadgeMatches(p, KAKAO_BADGE) then KAKAO_BADGE.badge
    else if BadgeMatches(p, RIDI_BADGE) then RIDI_BADGE.badge
    else if BadgeMatches(p, LAFTEL_BADGE) then LAFTEL_BADGE.badge
    else if BadgeMatches(p, WAVVE_BADGE) then WAVVE_BADGE.badge
    else if BadgeMatches(p, COUPANG_BADGE) then COUPANG_BADGE.badge
    else Badge(GRAY_STYLE, platform)
  }

  /** The badge read off the table: the first matching rule, else gray with
      the string itself as label. */
  function TableBadge(platform: string): Badge {
    match FirstIndex(BADGE_RULES, r => BadgeMatches(Lower(platform), r))
    case Some(i) => BADGE_RULES[i].badge
    case None => Badge(GRAY_STYLE, platform)
  }

  /** Every brand badge is coloured (not gray) and the labels are pairwise
      distinct, so a label tells which rule fired. */
  lemma BrandBadgesDistinct()
    ensures forall i :: 0 <= i < |BADGE_RULES| ==> BADGE_RULES[i].badge.style != GRAY_STYLE
    ensures forall i, j :: 0 <= i < j < |BADGE_RULES| ==>
      BADGE_RULES[i].badge.caption != BADGE_RULES[j].badge.caption
  {
  }

  /** Priority: when rule `i` is the first rule to match, the badge is rule
      `i`'s, whatever later rules match. */
  lemma BadgePriority(platform: string, i: nat)
    requires i < |BADGE_RULES| && BadgeMatches(Lower(platform), BADGE_RULES[i])
    requires forall j :: 0 <= j < i ==> !BadgeMatches(Lower(platform), BADGE_RULES[j])
    ensures GetPlatformBadge(platform) == BADGE_RULES[i].badge
  {
    var p := Lower(platform);
    if i < 5 {
      if i > 0 { assert !BadgeMatches(p, BADGE_RULES[0]); }
      if i > 1 { assert !BadgeMatches(p, BADGE_RULES[1]); }
      if i > 2 { assert !BadgeMatches(p, BADGE_RULES[2]); }
      if i > 3 { assert !BadgeMatches(p, BADGE_RULES[3]); }
      if i == 0 {} else if i == 1 {} else if i == 2 {} else if i == 3 {} else {}
    } else {
      assert !BadgeMatches(p, BADGE_RULES[0]);
      assert !BadgeMatches(p, BADGE_RULES[1]);
      assert !BadgeMatches(p, BADGE_RULES[2]);
      assert !BadgeMatches(p, BADGE_RULES[3]);
      assert !BadgeMatches(p, BADGE_RULES[4]);
      if i > 5 { assert !BadgeMatches(p, BADGE_RULES[5]); }
      if i > 6 { assert !BadgeMatches(p, BADGE_RULES[6]); }
      if i > 7 { assert !BadgeMatches(p, BADGE_RULES[7]); }
      if i > 8 { assert !BadgeMatches(p, BADGE_RULES[8]); }
      if i == 5 {} else if i == 6 {} else if i == 7 {} else if i == 8 {} else {}
    }
  }

  /** Fallback: a string no rule matches gets the gray style and keeps its
      own text as label. */
  lemma BadgeUnmatched(platform: string)
    requires forall j :: 0 <= j < |BADGE_RULES| ==> !BadgeMatches(Lower(platform), BADGE_RULES[j])
    ensures GetPlatformBadge(platform) == Badge(GRAY_STYLE, platform)
  {
    var p := Lower(platform);
    assert !BadgeMatches(p, BADGE_RULES[0]);
    assert !BadgeMatches(p, BADGE_RULES[1]);
    assert !BadgeMatches(p, BADGE_RULES[2]);
    assert !BadgeMatches(p, BADGE_RULES[3]);
    assert !BadgeMatches(p, BADGE_RULES[4]);
    assert !BadgeMatches(p, BADGE_RULES[5]);
    assert !BadgeMatches(p, BADGE_RULES[6]);
    assert !BadgeMatches(p, BADGE_RULES[7]);
    assert !BadgeMatches(p, BADGE_RULES[8]);
    assert !BadgeMatches(p, BADGE_RULES[9]);
  }

  /** The rule-by-rule resolver is exactly the first-match-wins table. */
  lemma GetPlatformBadgeIsTable(platform: string)
    ensures GetPlatformBadge(platform) == TableBadge(platform)
  {
    var m := (r: BadgeRule) => BadgeMatches(Lower(platform), r);
    var k := FirstIndex(BADGE_RULES, m);
    if k.Some? {
      forall j | 0 <= j < k.value ensures !BadgeMatches(Lower(platform), BADGE_RULES[j]) {
        assert !m(BADGE_RULES[j]);
      }
      assert m(BADGE_RULES[k.value]);
      BadgePriority(platform, k.value);
    } else {
      forall j | 0 <= j < |BADGE_RULES| ensures !BadgeMatches(Lower(platform), BADGE_RULES[j]) {
        assert !m(BADGE_RULES[j]);
      }
      BadgeUnmatched(platform);
    }
  }

  /** The badge is gray exactly when no rule matches, and then its label is
      the string as given; otherwise it is the badge of the first matching
      rule, so an earlier matching rule always beats a later one. */
  lemma BadgeGrayIffUnmatched(platform: string)
    ensures GetPlatformBadge(platform).style == GRAY_STYLE <==>
      forall j :: 0 <= j < |BADGE_RULES| ==> !BadgeMatches(Lower(platform), BADGE_RULES[j])
    ensures GetPlatformBadge(platform).style == GRAY_STYLE ==>
      GetPlatformBadge(platform).caption == platform
  {
    GetPlatformBadgeIsTable(platform);
    BrandBadgesDistinct();
    var m := (r: BadgeRule) => BadgeMatches(Lower(platform), r);
    var k := FirstIndex(BADGE_RULES, m);
    if k.Some? {
      assert m(BADGE_RULES[k.value]);
    } else {
      forall j | 0 <= j < |BADGE_RULES| ensures !BadgeMatches(Lower(platform), BADGE_RULES[j]) {
        assert !m(BADGE_RULES[j]);
      }
    }
  }

  /** A string that names both Naver and Kakao, by either alias, never gets
      the Kakao badge: the Naver rule comes first. */
  lemma NaverBeatsKakao(platform: string)
    requires BadgeMatches(Lower(platform), NAVER_BADGE) && BadgeMatches(Lower(platform), KAKAO_BADGE)
    ensures GetPlatformBadge(platform).caption != "KAKAO"
  {
  }

  /* ---------------------------------------------------------------------
     The tier badge and the first three platform badges
     --------------------------------------------------------------------- */

  /** `tierColor`, keyed by the tier's text. */
  const TIER_COLOR: map<string, string> := map[
    "S" := "bg-gradient-to-br from-yellow-400 to-yellow-600 border-yellow-300",
    "A" := "bg-gradient-to-br from-gray-300 to-gray-500 border-gray-200",
    "B" := "bg-gradient-to-br from-orange-400 to-orange-700 border-orange-300",
    "C" := "bg-gray-700 border-gray-600"]

  /** `tierColor[key] || tierColor.B`: an unknown key falls back to the
      B style. */
  function TierStyle(key: string): string {
    if key in TIER_COLOR then TIER_COLOR[key] else TIER_COLOR["B"]
  }

  /** Each of the four tiers gets its own style and never the fallback
      (except B, whose style the fallback is); any other key gets B's. */
  lemma TierStyleLookup(key: string)
    ensures ParseTier(key).Some? ==> TierStyle(key) == TIER_COLOR[TierName(ParseTier(key).value)]
    ensures ParseTier(key).None? ==> TierStyle(key) == TierStyle(TierName(B))
    ensures forall t1: Tier, t2: Tier :: t1 != t2 ==> TierStyle(TierName(t1)) != TierStyle(TierName(t2))
  {
  }

  /** The badges a card shows: one per platform string among the first
      three, in order; none for a missing or empty list. */
  function VisibleBadges(platform: Option<seq<string>>): (badges: seq<Badge>)
    ensures platform.None? ==> badges == []
    ensures platform.Some? ==> |badges| == if |platform.value| < 3 then |platform.value| else 3
    ensures forall i :: 0 <= i < |badges| ==> badges[i] == GetPlatformBadge(platform.value[i])
  {
    if platform.None? || |platform.value| == 0 then []
    else
      var shown := if |platform.value| < 3 then platform.value else platform.value[..3];
      seq(|shown|, i requires 0 <= i < |shown| => GetPlatformBadge(shown[i]))
  }

  /** A platform string misses a badge rule when it holds neither alias's
      first character. */
  lemma MissesBadge(p: string, rule: BadgeRule)
    requires |rule.english| > 0 && |rule.korean| > 0
    requires rule.english[0] !in p && rule.korean[0] !in p
    ensures !BadgeMatches(p, rule)
  {
    AbsentHead(p, rule.english);
    AbsentHead(p, rule.korean);
  }

  /** "리디북스" holds the character 디 but never the pair 디즈, so the
      Disney rule does not capture it. */
  lemma RidiOptionMissesDisney()
    ensures !BadgeMatches(PLATFORMS[5], DISNEY_BADGE)
  {
    AbsentHead(PLATFORMS[5], DISNEY_BADGE.english);
    ContainsShowsPair(PLATFORMS[5], DISNEY_BADGE.korean);
  }

  lemma NetflixOptionBadge(p: string)
    requires p == PLATFORMS[0]
    ensures GetPlatformBadge(p) == NETFLIX_BADGE.badge
  {
    assert Lower(p) == p && StartsWith(p, NETFLIX_BADGE.korean);
    BadgePriority(p, 0);
  }

  lemma WatchaOptionMissesEarlierRules()
    ensures forall j :: 0 <= j < 1 ==> !BadgeMatches(PLATFORMS[1], BADGE_RULES[j])
  {
    var p := PLATFORMS[1];
    forall j | 0 <= j < 1 ensures !BadgeMatches(p, BADGE_RULES[j]) {
      MissesBadge(p, BADGE_RULES[j]);
    }
  }

  lemma WatchaOptionBadge(p: string)
    requires p == PLATFORMS[1]
    ensures GetPlatformBadge(p) == WATCHA_BADGE.badge
  {
    WatchaOptionMissesEarlierRules();
    assert Lower(p) == p && StartsWith(p, WATCHA_BADGE.korean);
    BadgePriority(p, 1);
  }

  lemma TvingOptionMissesEarlierRules()
    ensures forall j :: 0 <= j < 2 ==> !BadgeMatches(PLATFORMS[2], BADGE_RULES[j])
  {
    var p := PLATFORMS[2];
    forall j | 0 <= j < 2 ensures !BadgeMatches(p, BADGE_RULES[j]) {
      MissesBadge(p, BADGE_RULES[j]);
    }
  }

  lemma TvingOptionBadge(p: string)
    requires p == PLATFORMS[2]
    ensures GetPlatformBadge(p) == TVING_BADGE.badge
  {
    TvingOptionMissesEarlierRules();
    assert Lower(p) == p && StartsWith(p, TVING_BADGE.korean);
    BadgePriority(p, 2);
  }

  lemma NaverOptionMissesEarlierRules()
    ensures forall j :: 0 <= j < 4 ==> !BadgeMatches(PLATFORMS[3], BADGE_RULES[j])
  {
    var p := PLATFORMS[3];
    forall j | 0 <= j < 4 ensures !BadgeMatches(p, BADGE_RULES[j]) {
      MissesBadge(p, BADGE_RULES[j]);
    }
  }

  lemma NaverOptionBadge(p: string)
    requires p == PLATFORMS[3]
    ensures GetPlatformBadge(p) == NAVER_BADGE.badge
  {
    NaverOptionMissesEarlierRules();
    assert Lower(p) == p && StartsWith(p, NAVER_BADGE.korean);
    BadgePriority(p, 4);
  }

  lemma KakaoOptionMissesEarlierRules()
    ensures forall j :: 0 <= j < 5 ==> !BadgeMatches(PLATFORMS[4], BADGE_RULES[j])
  {
    var p := PLATFORMS[4];
    forall j | 0 <= j < 5 ensures !BadgeMatches(p, BADGE_RULES[j]) {
      MissesBadge(p, BADGE_RULES[j]);
    }
  }

  lemma KakaoOptionBadge(p: string)
    requires p == PLATFORMS[4]
    ensures GetPlatformBadge(p) == KAKAO_BADGE.badge
  {
    KakaoOptionMissesEarlierRules();
    assert Lower(p) == p && StartsWith(p, KAKAO_BADGE.korean);
    BadgePriority(p, 5);
  }

  lemma RidiOptionMissesEarlierRules()
    ensures forall j :: 0 <= j < 6 && j != 3 ==> !BadgeMatches(PLATFORMS[5], BADGE_RULES[j])
  {
    var p := PLATFORMS[5];
    forall j | 0 <= j < 6 && j != 3 ensures !BadgeMatches(p, BADGE_RULES[j]) {
      MissesBadge(p, BADGE_RULES[j]);
    }
  }

  lemma RidiOptionBadge(p: string)
    requires p == PLATFORMS[5]
    ensures GetPlatformBadge(p) == RIDI_BADGE.badge
  {
    RidiOptionMissesEarlierRules();
    RidiOptionMissesDisney();
    assert Lower(p) == p && StartsWith(p, RIDI_BADGE.korean);
    BadgePriority(p, 6);
  }

  lemma LaftelOptionMissesEarlierRules()
    ensures forall j :: 0 <= j < 7 ==> !BadgeMatches(PLATFORMS[6], BADGE_RULES[j])
  {
    var p := PLATFORMS[6];
    forall j | 0 <= j < 7 ensures !BadgeMatches(p, BADGE_RULES[j]) {
      MissesBadge(p, BADGE_RULES[j]);
    }
  }

  lemma LaftelOptionBadge(p: string)
    requires p == PLATFORMS[6]
    ensures GetPlatformBadge(p) == LAFTEL_BADGE.badge
  {
    LaftelOptionMissesEarlierRules();
    assert Lower(p) == p && StartsWith(p, LAFTEL_BADGE.korean);
    BadgePriority(p, 7);
  }

  lemma DisneyOptionMissesEarlierRules()
    ensures forall j :: 0 <= j < 3 ==> !BadgeMatches(PLATFORMS[7], BADGE_RULES[j])
  {
    var p := PLATFORMS[7];
    forall j | 0 <= j < 3 ensures !BadgeMatches(p, BADGE_RULES[j]) {
      MissesBadge(p, BADGE_RULES[j]);
    }
  }

  lemma DisneyOptionBadge(p: string)
    requires p == PLATFORMS[7]
    ensures GetPlatformBadge(p) == DISNEY_BADGE.badge
  {
    DisneyOptionMissesEarlierRules();
    assert Lower(p) == p && StartsWith(p, DISNEY_BADGE.korean);
    BadgePriority(p, 3);
  }

  /** The caption each filter option's badge carries, option by option. */
  const OPTION_CAPTIONS: seq<string> :=
    ["NETFLIX", "WATCHA", "TVING", "NAVER", "KAKAO", "RIDI", "LAFTEL", "Disney+"]

  /** A filter option's badge is a brand badge with the expected caption. */
  predicate BrandedAs(platform: string, caption: string) {
    GetPlatformBadge(platform).style != GRAY_STYLE && GetPlatformBadge(platform).caption == caption
  }

  lemma OptionBadgesLow(i: nat)
    requires i < 4
    ensures BrandedAs(PLATFORMS[i], OPTION_CAPTIONS[i])
  {
    if i == 0 { NetflixOptionBadge(PLATFORMS[i]); }
    else if i == 1 { WatchaOptionBadge(PLATFORMS[i]); }
    else if i == 2 { TvingOptionBadge(PLATFORMS[i]); }
    else { NaverOptionBadge(PLATFORMS[i]); }
  }

  lemma OptionBadgesHigh(i: nat)
    requires 4 <= i < 8
    ensures BrandedAs(PLATFORMS[i], OPTION_CAPTIONS[i])
  {
    if i == 4 { KakaoOptionBadge(PLATFORMS[i]); }
    else if i == 5 { RidiOptionBadge(PLATFORMS[i]); }
    else if i == 6 { LaftelOptionBadge(PLATFORMS[i]); }
    else { DisneyOptionBadge(PLATFORMS[i]); }
  }

  /** Every platform a user can pick in the filter gets its own brand
      badge, and no two options share one. */
  lemma PlatformOptionsBranded()
    ensures forall i :: 0 <= i < |PLATFORMS| ==> GetPlatformBadge(PLATFORMS[i]).style != GRAY_STYLE
    ensures forall i, j :: 0 <= i < j < |PLATFORMS| ==>
      GetPlatformBadge(PLATFORMS[i]).caption != GetPlatformBadge(PLATFORMS[j]).caption
  {
    OptionCaptionsDistinct();
    forall i | 0 <= i < |PLATFORMS| ensures BrandedAs(PLATFORMS[i], OPTION_CAPTIONS[i]) {
      if i < 4 { OptionBadgesLow(i); } else { OptionBadgesHigh(i); }
    }
  }

  lemma OptionCaptionsDistinct()
    ensures |OPTION_CAPTIONS| == |PLATFORMS| && Distinct(OPTION_CAPTIONS)
  {
  }
}

=== FILE: filter_section.dfy ===
/** The filter panel's state rules: the category tabs, the toggle chips for
    genre, platform and mood, and the search button. */
module FilterSection {
  import opened Wrappers
  import opened Types

  /* ---------------------------------------------------------------------
     Chip groups
     --------------------------------------------------------------------- */

  /** What a chip click emits: the empty string when the chip is the current
      selection (deselect), otherwise the chip's option. */
  function ChipClick(option: string, selected: Option<string>): (emitted: string)
    ensures emitted == "" || emitted == option
    ensures option != "" ==> (emitted == "" <==> selected == Some(option))
  {
    if selected == Some(option) then "" else option
  }

  /** `val || null`: the empty string clears the field. */
  function FieldValue(val: string): (v: Option<string>)
    ensures v.None? <==> val == ""
    ensures v.Some? ==> v.value == val
  {
    if val == "" then None else Some(val)
  }

  /** The three fields a chip group drives. */
  datatype ChipField = Genre | Platform | Mood

  /** The current selection of a chip group. */
  function Selected(f: FilterState, field: ChipField): Option<string> {
    match field
    case Genre => f.genre
    case Platform => f.platform
    case Mood => f.mood
  }

  /** `setFilters(prev => ({ ...prev, <field>: val || null }))`. */
  function SetField(f: FilterState, field: ChipField, val: string): (g: FilterState)
    ensures Selected(g, field) == FieldValue(val)
    ensures g.category == f.category
    ensures forall other :: other != field ==> Selected(g, other) == Selected(f, other)
  {
    match field
    case Genre => f.(genre := FieldValue(val))
    case Platform => f.(platform := FieldValue(val))
    case Mood => f.(mood := FieldValue(val))
  }

  /** Clicking the chip `option` in the group for `field`. */
  function ClickChip(f: FilterState, field: ChipField, option: string): FilterState {
    SetField(f, field, ChipClick(option, Selected(f, field)))
  }

  /** A chip click deselects the current choice and otherwise selects the
      chip; the other fields, the category included, are unchanged. */
  lemma ClickChipEffect(f: FilterState, field: ChipField, option: string)
    requires option != ""
    ensures Selected(f, field) == Some(option) ==> Selected(ClickChip(f, field, option), field) == None
    ensures Selected(f, field) != Some(option) ==> Selected(ClickChip(f, field, option), field) == Some(option)
    ensures ClickChip(f, field, option).category == f.category
    ensures forall other :: other != field ==> Selected(ClickChip(f, field, option), other) == Selected(f, other)
  {
  }

  /** A chip with an empty option can only ever clear its field. */
  lemma ClickEmptyChipClears(f: FilterState, field: ChipField)
    ensures Selected(ClickChip(f, field, ""), field) == None
  {
  }

  /** Clicking the same chip twice: from a state where it is not selected
      the field ends cleared, from one where it is selected it ends selected
      again. Starting from an unset field, two clicks restore it. */
  lemma ClickChipTwice(f: FilterState, field: ChipField, option: string)
    requires option != ""
    ensures var g := ClickChip(ClickChip(f, field, option), field, option);
      Selected(g, field) == (if Selected(f, field) == Some(option) then Some(option) else None)
    ensures Selected(f, field) == None ==>
      ClickChip(ClickChip(f, field, option), field, option) == f
  {
    ClickChipEffect(f, field, option);
    ClickChipEffect(ClickChip(f, field, option), field, option);
  }

  /** A chip is highlighted iff it is the current selection. */
  predicate Highlighted(option: string, selected: Option<string>) {
    selected == Some(option)
  }

  /** Within a group of distinct options at most one chip is highlighted,
      and a highlighted chip is the selection. */
  lemma AtMostOneHighlighted(options: seq<string>, selected: Option<string>, i: int, j: int)
    requires Distinct(options)
    requires 0 <= i < |options| && 0 <= j < |options|
    requires Highlighted(options[i], selected) && Highlighted(options[j], selected)
    ensures i == j
  {
  }

  /* ---------------------------------------------------------------------
     Category tabs
     --------------------------------------------------------------------- */

  /** A category tab: the category it selects (`None` for "all") and its
      caption. */
  datatype CategoryTab = CategoryTab(id: Option<Category>, caption: string)

  const CATEGORY_TABS: seq<CategoryTab> := [
    CategoryTab(None, "전체"),
    CategoryTab(Some(Movie), "영화"),
    CategoryTab(Some(Drama), "드라마"),
    CategoryTab(Some(Webtoon), "웹툰"),
    CategoryTab(Some(Anime), "애니메이션"),
    CategoryTab(Some(Novel), "소설")]

  /** `setFilters(prev => ({ ...prev, category: cat.id }))`: no toggle. */
  function ClickTab(f: FilterState, tab: CategoryTab): (g: FilterState)
    ensures g.category == tab.id
    ensures g.genre == f.genre && g.platform == f.platform && g.mood == f.mood
  {
    f.(category := tab.id)
  }

  /** A tab is highlighted iff its category is the selected one. */
  predicate TabActive(f: FilterState, tab: CategoryTab) {
    f.category == tab.id
  }

  /** Re-clicking a tab keeps it selected, and after any tab click that tab
      is the one highlighted. */
  lemma ClickTabIdempotent(f: FilterState, tab: CategoryTab)
    ensures ClickTab(ClickTab(f, tab), tab) == ClickTab(f, tab)
    ensures TabActive(ClickTab(f, tab), tab)
  {
  }

  /** Whatever the filter state, exactly one tab is highlighted: the tabs
      cover "all" and every category, each once. */
  lemma ExactlyOneTabActive(f: FilterState)
    ensures exists i :: 0 <= i < |CATEGORY_TABS| && TabActive(f, CATEGORY_TABS[i])
    ensures forall i, j ::
      (0 <= i < |CATEGORY_TABS| && 0 <= j < |CATEGORY_TABS|
       && TabActive(f, CATEGORY_TABS[i]) && TabActive(f, CATEGORY_TABS[j])) ==> i == j
  {
    match f.category
    case None => assert TabActive(f, CATEGORY_TABS[0]);
    case Some(Movie) => assert TabActive(f, CATEGORY_TABS[1]);
    case Some(Drama) => assert TabActive(f, CATEGORY_TABS[2]);
    case Some(Webtoon) => assert TabActive(f, CATEGORY_TABS[3]);
    case Some(Anime) => assert TabActive(f, CATEGORY_TABS[4]);
    case Some(Novel) => assert TabActive(f, CATEGORY_TABS[5]);
  }

  /* ---------------------------------------------------------------------
     Search button
     --------------------------------------------------------------------- */

  /** `disabled={isLoading}`: the search button responds only while no
      search is loading. */
  predicate SearchEnabled(isLoading: bool) {
    !isLoading
  }
}

=== FILE: gemini_service.dfy ===
/** The recommendation client: composes the prompt from the filter state,
    takes the provider's reply, parses it, and maps each parsed entry to a
    content item. Every failure collapses to an empty result.

    The network call, the JSON parser, the clock and the random source are
    parameters: `ask` stands for the provider call, `parse` for
    `JSON.parse` on any text other than "[]", `now(i)` for the `Date.now()`
    read while mapping entry `i`, and `rand(i)` for its `Math.random()`. */
module GeminiService {
  import opened Wrappers
  import opened Text
  import opened Types

  /* ---------------------------------------------------------------------
     Prompt
     --------------------------------------------------------------------- */

  const ANY: string := "Any"
  const ANY_CATEGORY: string := "Any (Mix of Movie, Webtoon, Novel, Anime, Drama)"

  /** `value || placeholder`: an unset or empty value shows the
      placeholder. */
  function ShownOr(value: Option<string>, placeholder: string): (shown: string)
    ensures value.Some? && value.value != "" ==> shown == value.value
    ensures value.None? || value.value == "" ==> shown == placeholder
  {
    if value.Some? && value.value != "" then value.value else placeholder
  }

  /** The category as the prompt shows it. */
  function CategoryShown(category: Option<Category>): (shown: string)
    ensures category.None? ==> shown == ANY_CATEGORY
    ensures category.Some? ==> shown == CategoryName(category.value)
  {
    ShownOr(if category.Some? then Some(CategoryName(category.value)) else None, ANY_CATEGORY)
  }

  /** One preference line of the prompt, without its indentation. */
  function FieldText(name: string, shown: string): string {
    "- " + name + ": " + shown + "\n"
  }

  const PROMPT_INTRO: string :=
    "\n    Recommend 4 specific content titles (Movies, Webtoons, Novels, Anime, or Drama) based on the following user preferences:\n"

  const PROMPT_OUTRO: string :=
    "\n    If specific filters are not provided, suggest generally popular \"Masterpiece\" (인생작) content popular in Korea among MZ generation.\n    \n    Ensure the response includes a tier rating (S, A, B) based on community reputation and a short 1-sentence reason why it fits the mood.\n    Also, assume hypothetical funding or merchandise exists for these items.\n    \n    The description should be a brief synopsis in Korean.\n  "

  const INDENT: string := "    "

  /** The pieces of the prompt, in order, between an opening and a closing
      paragraph. */
  function PromptParts(intro: string, outro: string, f: FilterState): seq<string> {
    [intro,
     INDENT, FieldText("Category", CategoryShown(f.category)),
     INDENT, FieldText("Genre", ShownOr(f.genre, ANY)),
     INDENT, FieldText("Platform", ShownOr(f.platform, ANY)),
     INDENT, FieldText("Mood", ShownOr(f.mood, ANY)),
     outro]
  }

  /** A prompt that states every preference, showing the selected value or,
      when unset or empty, its placeholder, whatever text surrounds the
      preference lines. */
  function PromptAround(intro: string, outro: string, f: FilterState): (prompt: string)
    ensures Contains(prompt, FieldText("Category", CategoryShown(f.category)))
    ensures Contains(prompt, FieldText("Genre", ShownOr(f.genre, ANY)))
    ensures Contains(prompt, FieldText("Platform", ShownOr(f.platform, ANY)))
    ensures Contains(prompt, FieldText("Mood", ShownOr(f.mood, ANY)))
  {
    var parts := PromptParts(intro, outro, f);
    JoinContainsFields(parts);
    Join(parts)
  }

  /** The prompt sent to the provider. */
  function Prompt(f: FilterState): (prompt: string)
    ensures Contains(prompt, FieldText("Category", CategoryShown(f.category)))
    ensures Contains(prompt, FieldText("Genre", ShownOr(f.genre, ANY)))
    ensures Contains(prompt, FieldText("Platform", ShownOr(f.platform, ANY)))
    ensures Contains(prompt, FieldText("Mood", ShownOr(f.mood, ANY)))
  {
    PromptAround(PROMPT_INTRO, PROMPT_OUTRO, f)
  }

  /** The joined prompt contains each of the four field lines. */
  lemma JoinContainsFields(parts: seq<string>)
    requires |parts| == 10
    ensures Contains(Join(parts), parts[2]) && Contains(Join(parts), parts[4])
    ensures Contains(Join(parts), parts[6]) && Contains(Join(parts), parts[8])
  {
    JoinContainsPart(parts, 2);
    JoinContainsPart(parts, 4);
    JoinContainsPart(parts, 6);
    JoinContainsPart(parts, 8);
  }

  /** With nothing selected, every preference shows its placeholder. */
  lemma UnsetFiltersPrompt(f: FilterState)
    requires f == FilterState(None, None, None, None)
    ensures Contains(Prompt(f), FieldText("Category", ANY_CATEGORY))
    ensures Contains(Prompt(f), FieldText("Genre", ANY))
    ensures Contains(Prompt(f), FieldText("Platform", ANY))
    ensures Contains(Prompt(f), FieldText("Mood", ANY))
  {
  }

  /* ---------------------------------------------------------------------
     Reply, parsing and mapping
     --------------------------------------------------------------------- */

  /** One entry of the parsed array. The response schema fixes category
      and tier; `title` is `None` when it is missing or not a string, and
      the optional fields are `None` when missing. */
  datatype RawItem = RawItem(
    title: Option<string>,
    category: Category,
    tier: Tier,
    rating: real,
    reason: Option<string>,
    description: Option<string>,
    platform: Option<seq<string>>)

  /** What `JSON.parse` produced: an array of entries, some other JSON value
      (on which `.map` throws), or a syntax error. */
  datatype Parsed = ParsedArray(entries: seq<RawItem>) | ParsedNonArray | ParseError

  /** The provider call's outcome: it threw, or it returned a response whose
      `text` may be missing. */
  datatype ProviderReply = ProviderFailed | ProviderText(text: Option<string>)

  /** `response.text || "[]"`. */
  function ResponseBody(text: Option<string>): (body: string)
    ensures text.None? || text.value == "" ==> body == "[]"
    ensures text.Some? && text.value != "" ==> body == text.value
  {
    if text.Some? && text.value != "" then text.value else "[]"
  }

  /** `JSON.parse(body)`: "[]" is the empty array; any other text is
      whatever the given parser makes of it. */
  function ParseJson(parse: string -> Parsed, body: string): Parsed {
    if body == "[]" then ParsedArray([]) else parse(body)
  }

  /** `rec-${index}-${Date.now()}`. */
  function RecId(index: nat, timestamp: nat): string {
    "rec-" + NatToString(index) + "-" + NatToString(timestamp)
  }

  /** Two ids that agree were made for the same index, whatever the
      timestamps: an index is written with digits only, so the first `-`
      after `rec-` ends it. */
  lemma RecIdDeterminesIndex(i: nat, t: nat, j: nat, u: nat)
    requires RecId(i, t) == RecId(j, u)
    ensures i == j
  {
    RecIdTail(i, t);
    RecIdTail(j, u);
    SplitAtFirstDash(NatToString(i), NatToString(t), NatToString(j), NatToString(u));
    NatToStringInjective(i, j);
  }

  /** What follows `rec-` in an id is the index, a dash and the timestamp. */
  lemma RecIdTail(i: nat, t: nat)
    ensures RecId(i, t)[4..] == NatToString(i) + ("-" + NatToString(t))
  {
    var a := NatToString(i);
    var b := NatToString(t);
    assert RecId(i, t) == "rec-" + (a + ("-" + b));
    DropConcat("rec-", a + ("-" + b));
  }

  /** A string with no dash, followed by a dash, is recovered from the
      whole. */
  lemma SplitAtFirstDash(a: string, b: string, c: string, d: string)
    requires forall k :: 0 <= k < |a| ==> IsDigit(a[k])
    requires forall k :: 0 <= k < |c| ==> IsDigit(c[k])
    requires a + ("-" + b) == c + ("-" + d)
    ensures a == c
  {
    var s := a + ("-" + b);
    assert s[|a|] == '-';
    assert s[|c|] == '-';
    assert |a| == |c|;
    assert a == s[..|a|];
    assert c == s[..|c|];
  }

  const IMAGE_PREFIX: string := "https://picsum.photos/seed/"
  const IMAGE_SUFFIX: string := "/400/600"

  /** The placeholder image for a title: its seed is the title with every
      whitespace character removed. */
  function ImageUrl(title: string): (url: string)
    ensures StartsWith(url, IMAGE_PREFIX)
    ensures EndsWith(url, IMAGE_SUFFIX)
    ensures |url| >= |IMAGE_PREFIX| + |IMAGE_SUFFIX|
    ensures ImageSeed(url) == RemoveWhitespace(title)
  {
    var url := IMAGE_PREFIX + (RemoveWhitespace(title) + IMAGE_SUFFIX);
    Framed(IMAGE_PREFIX, RemoveWhitespace(title), IMAGE_SUFFIX);
    url
  }

  /** The seed segment of an image URL built by `ImageUrl`. */
  function ImageSeed(url: string): string {
    if |url| >= |IMAGE_PREFIX| + |IMAGE_SUFFIX| then url[|IMAGE_PREFIX|..|url| - |IMAGE_SUFFIX|] else ""
  }

  /** The item made from entry `index` of a reply whose title is present:
      fresh id and image, the other fields copied, and the coin flip for
      funding. */
  function ToItem(raw: RawItem, index: nat, timestamp: nat, random: real): (item: ContentItem)
    requires raw.title.Some?
  {
    ContentItem(
      RecId(index, timestamp),
      raw.title.value,
      raw.category,
      ImageUrl(raw.title.value),
      raw.tier,
      raw.rating,
      raw.reason,
      raw.description,
      raw.platform,
      Some(random > 0.5))
  }

  /** Entry `index` of the reply as an item, or `None` where the mapping
      throws (`.replace` on a missing title). */
  function MapEntry(raw: RawItem, index: nat, now: nat -> nat, rand: nat -> real): Option<ContentItem> {
    if raw.title.None? then None else Some(ToItem(raw, index, now(index), rand(index)))
  }

  /** `rawData.map(...)` over `entries`: the items in order, or `None` when
      some entry throws. */
  function MapEntries(entries: seq<RawItem>, now: nat -> nat, rand: nat -> real)
    : (r: Option<seq<ContentItem>>)
    ensures r.Some? <==> forall i :: 0 <= i < |entries| ==> entries[i].title.Some?
    ensures r.Some? ==> |r.value| == |entries|
    ensures r.Some? ==> forall i :: 0 <= i < |entries| ==> MapEntry(entries[i], i, now, rand) == Some(r.value[i])
  {
    if forall i :: 0 <= i < |entries| ==> entries[i].title.Some? then
      Some(seq(|entries|, i requires 0 <= i < |entries| && entries[i].title.Some? =>
        ToItem(entries[i], i, now(i), rand(i))))
    else
      None
  }

  /** The items of one reply have pairwise-distinct ids, whatever the
      clock reads, and image seeds without whitespace. */
  lemma MappedItemsWellFormed(entries: seq<RawItem>, now: nat -> nat, rand: nat -> real)
    requires MapEntries(entries, now, rand).Some?
    ensures var items := MapEntries(entries, now, rand).value;
      (forall i, j :: 0 <= i < j < |items| ==> items[i].id != items[j].id)
      && (forall i :: 0 <= i < |items| ==> !HasWhitespace(ImageSeed(items[i].imageUrl)))
  {
    var items := MapEntries(entries, now, rand).value;
    forall i | 0 <= i < |items|
      ensures items[i].id == RecId(i, now(i))
      ensures !HasWhitespace(ImageSeed(items[i].imageUrl))
    {
      assert MapEntry(entries[i], i, now, rand) == Some(items[i]);
    }
    forall i, j | 0 <= i < j < |items| ensures items[i].id != items[j].id {
      if items[i].id == items[j].id {
        RecIdDeterminesIndex(i, now(i), j, now(j));
      }
    }
  }

  /** What `getRecommendations` makes of the provider's reply: the mapped
      items, or the empty list when the provider failed, the text does not
      parse, the parsed value is not an array, or an entry cannot be
      mapped. */
  function Recommend(reply: ProviderReply, parse: string -> Parsed, now: nat -> nat, rand: nat -> real)
    : (items: seq<ContentItem>)
    ensures reply.ProviderFailed? ==> items == []
    ensures forall i, j :: 0 <= i < j < |items| ==> items[i].id != items[j].id
    ensures forall i :: 0 <= i < |items| ==> !HasWhitespace(ImageSeed(items[i].imageUrl))
  {
    match reply
    case ProviderFailed => []
    case ProviderText(text) =>
      match ParseJson(parse, ResponseBody(text))
      case ParsedArray(entries) =>
        var mapped := MapEntries(entries, now, rand);
        if mapped.Some? then
          MappedItemsWellFormed(entries, now, rand);
          mapped.value
        else []
      case _ => []
  }

  /** `getRecommendations(filters)`: ask the provider with the prompt for
      the filters and read its reply. */
  function GetRecommendations(
    filters: FilterState,
    ask: string -> ProviderReply,
    parse: string -> Parsed,
    now: nat -> nat,
    rand: nat -> real): (items: seq<ContentItem>)
    ensures ask(Prompt(filters)).ProviderFailed? ==> items == []
    ensures forall i, j :: 0 <= i < j < |items| ==> items[i].id != items[j].id
  {
    Recommend(ask(Prompt(filters)), parse, now, rand)
  }

  /** A missing or empty response text is read as "[]" and gives no
      items. */
  lemma EmptyReplyGivesNothing(parse: string -> Parsed, now: nat -> nat, rand: nat -> real)
    ensures Recommend(ProviderText(None), parse, now, rand) == []
    ensures Recommend(ProviderText(Some("")), parse, now, rand) == []
  {
  }

  /** Every failure gives the empty list: a provider error, text that does
      not parse or is not an array, or an entry without a title. */
  lemma FailuresGiveNothing(reply: ProviderReply, parse: string -> Parsed, now: nat -> nat, rand: nat -> real)
    requires reply.ProviderText?
    requires var parsed := ParseJson(parse, ResponseBody(reply.text));
      !parsed.ParsedArray? || exists i :: 0 <= i < |parsed.entries| && parsed.entries[i].title.None?
    ensures Recommend(reply, parse, now, rand) == []
  {
  }

  /** On success the items are the entries, in order and one for one: ids
      and images are made from the index and the title, the coin flip sets
      funding, and every other field is copied as it was. */
  lemma SuccessfulReply(
    reply: ProviderReply, parse: string -> Parsed, now: nat -> nat, rand: nat -> real, entries: seq<RawItem>)
    requires reply.ProviderText?
    requires ParseJson(parse, ResponseBody(reply.text)) == ParsedArray(entries)
    requires forall i :: 0 <= i < |entries| ==> entries[i].title.Some?
    ensures var items := Recommend(reply, parse, now, rand);
      |items| == |entries|
      && forall i :: 0 <= i < |entries| ==>
        && items[i].id == RecId(i, now(i))
        && Some(items[i].title) == entries[i].title
        && items[i].imageUrl == ImageUrl(items[i].title)
        && items[i].category == entries[i].category
        && items[i].tier == entries[i].tier
        && items[i].rating == entries[i].rating
        && items[i].reason == entries[i].reason
        && items[i].description == entries[i].description
        && items[i].platform == entries[i].platform
        && items[i].fundingAvailable == Some(rand(i) > 0.5)
  {
    var items := Recommend(reply, parse, now, rand);
    forall i | 0 <= i < |entries|
      ensures MapEntry(entries[i], i, now, rand) == Some(items[i])
    {
    }
  }
}

=== FILE: text.dfy ===
/** The JavaScript string primitives the application relies on, stated over
    `string` (a sequence of Unicode scalar values):
    `toLowerCase`, `includes`, `replace(/\s/g, '')` and number-to-string
    conversion of a non-negative integer. */
module Text {

  /* ---------------------------------------------------------------------
     toLowerCase
     --------------------------------------------------------------------- */

  predicate IsAsciiUpper(c: char) {
    'A' <= c <= 'Z'
  }

  /** Lower-cases one character. Only ASCII letters are mapped; every other
      character (Hangul in particular) is left as it is. */
  function LowerChar(c: char): (r: char)
    ensures !IsAsciiUpper(r)
    ensures IsAsciiUpper(c) ==> r as int == c as int + 32
    ensures !IsAsciiUpper(c) ==> r == c
  {
    if IsAsciiUpper(c) then (c as int + 32) as char else c
  }

  /** `s.toLowerCase()`, character by character. */
  function Lower(s: string): (r: string)
    ensures |r| == |s|
    ensures forall i :: 0 <= i < |s| ==> r[i] == LowerChar(s[i])
  {
    if s == [] then [] else [LowerChar(s[0])] + Lower(s[1..])
  }

  /** A string with no upper-case ASCII letter. */
  predicate IsLowerCase(s: string) {
    forall i :: 0 <= i < |s| ==> !IsAsciiUpper(s[i])
  }

  /** Lower-casing yields a lower-case string, leaves lower-case strings
      alone, and is therefore idempotent. */
  lemma LowerFacts(s: string)
    ensures IsLowerCase(Lower(s))
    ensures IsLowerCase(s) ==> Lower(s) == s
    ensures Lower(Lower(s)) == Lower(s)
  {
  }

  /* ---------------------------------------------------------------------
     includes
     --------------------------------------------------------------------- */

  predicate StartsWith(s: string, prefix: string) {
    |prefix| <= |s| && s[..|prefix|] == prefix
  }

  /** A string starts with anything placed at its front. */
  lemma StartsWithConcat(a: string, b: string)
    ensures StartsWith(a + b, a)
  {
    assert (a + b)[..|a|] == a;
  }

  /** Dropping the front part of a concatenation leaves the back part. */
  lemma DropConcat(a: string, b: string)
    ensures (a + b)[|a|..] == b
  {
  }

  predicate EndsWith(s: string, suffix: string) {
    |suffix| <= |s| && s[|s| - |suffix|..] == suffix
  }

  /** A string framed by a front and a back part starts with the front,
      ends with the back, and holds the middle in between. */
  lemma Framed(front: string, middle: string, back: string)
    ensures StartsWith(front + (middle + back), front)
    ensures EndsWith(front + (middle + back), back)
    ensures (front + (middle + back))[|front|..|front| + |middle|] == middle
  {
    var s := front + (middle + back);
    assert s[..|front|] == front;
    assert s[|s| - |back|..] == back;
    assert s[|front|..|front| + |middle|] == middle;
  }

  /** A string ends with anything placed at its back. */
  lemma EndsWithConcat(a: string, b: string)
    ensures EndsWith(a + b, b)
  {
    assert (a + b)[|a + b| - |b|..] == b;
  }

  /** `s.includes(k)`: `k` occurs in `s` at some position, tried from the
      left. */
  predicate Contains(s: string, k: string)
    decreases |s|
  {
    StartsWith(s, k) || (|s| > 0 && Contains(s[1..], k))
  }

  /** An occurrence of `k` in `s` at index `i`. */
  ghost predicate OccursAt(s: string, k: string, i: int) {
    0 <= i && i + |k| <= |s| && s[i..i + |k|] == k
  }

  /** An occurrence of `k` at index `i` is found by the scan. */
  lemma {:induction false} OccursImpliesContains(s: string, k: string, i: int)
    requires OccursAt(s, k, i)
    ensures Contains(s, k)
    decreases i
  {
    if i > 0 {
      assert s[1..][i - 1..i - 1 + |k|] == s[i..i + |k|];
      OccursImpliesContains(s[1..], k, i - 1);
    }
  }

  /** The scanning definition of `Contains` agrees with the positional one:
      `k` is contained in `s` iff it occurs at some index. */
  lemma {:induction false} ContainsIffOccurs(s: string, k: string)
    ensures Contains(s, k) <==> exists i :: OccursAt(s, k, i)
    decreases |s|
  {
    if exists i :: OccursAt(s, k, i) {
      var i :| OccursAt(s, k, i);
      OccursImpliesContains(s, k, i);
    }
    if Contains(s, k) {
      if StartsWith(s, k) {
        assert OccursAt(s, k, 0);
      } else {
        ContainsIffOccurs(s[1..], k);
        var i :| OccursAt(s[1..], k, i);
        assert s[i + 1..i + 1 + |k|] == s[1..][i..i + |k|];
        assert OccursAt(s, k, i + 1);
      }
    }
  }

  /** A string contains whatever it starts with. */
  lemma ContainsPrefix(k: string, b: string)
    ensures Contains(k + b, k)
  {
    StartsWithConcat(k, b);
  }

  /** Putting text in front keeps every occurrence. */
  lemma ContainsExtendLeft(a: string, b: string, k: string)
    requires Contains(b, k)
    ensures Contains(a + b, k)
  {
    ContainsIffOccurs(b, k);
    var i :| OccursAt(b, k, i);
    assert (a + b)[|a| + i..|a| + i + |k|] == b[i..i + |k|];
    OccursImpliesContains(a + b, k, |a| + i);
  }

  /** An occurrence of `k` puts its first two characters side by side in `s`. */
  lemma ContainsShowsPair(s: string, k: string)
    requires |k| >= 2
    ensures Contains(s, k) ==> exists i :: 0 <= i < |s| - 1 && s[i] == k[0] && s[i + 1] == k[1]
  {
    ContainsIffOccurs(s, k);
    if Contains(s, k) {
      var i :| OccursAt(s, k, i);
      assert s[i..i + |k|][0] == s[i] && s[i..i + |k|][1] == s[i + 1];
    }
  }

  /** The concatenation of a list of strings, in order. */
  function Join(parts: seq<string>): string {
    if parts == [] then [] else parts[0] + Join(parts[1..])
  }

  /** A joined string contains each of its parts. */
  lemma {:induction false} JoinContainsPart(parts: seq<string>, i: nat)
    requires i < |parts|
    ensures Contains(Join(parts), parts[i])
    decreases i
  {
    if i == 0 {
      ContainsPrefix(parts[0], Join(parts[1..]));
    } else {
      JoinContainsPart(parts[1..], i - 1);
      ContainsExtendLeft(parts[0], Join(parts[1..]), parts[i]);
    }
  }

  /** A non-empty `k` whose first character does not appear in `s` is not
      contained in `s`. */
  lemma {:induction false} AbsentHead(s: string, k: string)
    requires |k| > 0 && k[0] !in s
    ensures !Contains(s, k)
    decreases |s|
  {
    if |s| > 0 {
      assert s[0] != k[0];
      AbsentHead(s[1..], k);
    }
  }

  /* ---------------------------------------------------------------------
     replace(/\s/g, '')
     --------------------------------------------------------------------- */

  /** The characters the regular-expression class `\s` matches: the
      ECMAScript WhiteSpace and LineTerminator code points. */
  predicate IsWhitespace(c: char) {
    var n := c as int;
    n == 0x09 || n == 0x0A || n == 0x0B || n == 0x0C || n == 0x0D || n == 0x20
    || n == 0xA0 || n == 0x1680 || (0x2000 <= n <= 0x200A)
    || n == 0x2028 || n == 0x2029 || n == 0x202F || n == 0x205F
    || n == 0x3000 || n == 0xFEFF
  }

  predicate HasWhitespace(s: string) {
    exists i :: 0 <= i < |s| && IsWhitespace(s[i])
  }

  /** `s.replace(/\s/g, '')`: removes every whitespace character and keeps
      every other character, each as often as it occurs in `s`, in order. */
  function RemoveWhitespace(s: string): (r: string)
    ensures !HasWhitespace(r)
    ensures forall c :: IsWhitespace(c) ==> multiset(r)[c] == 0
    ensures forall c :: !IsWhitespace(c) ==> multiset(r)[c] == multiset(s)[c]
    ensures !HasWhitespace(s) ==> r == s
  {
    if s == [] then []
    else
      var rest := RemoveWhitespace(s[1..]);
      assert s == [s[0]] + s[1..];
      if IsWhitespace(s[0]) then rest else [s[0]] + rest
  }

  /** Removal works piece by piece, so the kept characters stay in the
      order they had in `s`. */
  lemma {:induction false} RemoveWhitespaceConcat(a: string, b: string)
    ensures RemoveWhitespace(a + b) == RemoveWhitespace(a) + RemoveWhitespace(b)
    decreases |a|
  {
    if a == [] {
      assert a + b == b;
    } else {
      assert (a + b)[0] == a[0];
      assert (a + b)[1..] == a[1..] + b;
      RemoveWhitespaceConcat(a[1..], b);
    }
  }

  /* ---------------------------------------------------------------------
     Number-to-string conversion of a non-negative integer
     --------------------------------------------------------------------- */

  predicate IsDigit(c: char) {
    '0' <= c <= '9'
  }

  function DigitChar(d: nat): (c: char)
    requires d < 10
    ensures IsDigit(c)
    ensures c as int - '0' as int == d
  {
    ('0' as int + d) as char
  }

  /** The number a string of decimal digits denotes, read most significant
      digit first. */
  function DecimalValue(s: string): nat
    requires forall i :: 0 <= i < |s| ==> IsDigit(s[i])
  {
    if s == [] then 0
    else
      assert IsDigit(s[|s| - 1]);
      DecimalValue(s[..|s| - 1]) * 10 + (s[|s| - 1] as int - '0' as int)
  }

  /** The decimal text of `n`, as a template literal `${n}` renders it. */
  function NatToString(n: nat): (s: string)
    ensures |s| > 0
    ensures forall i :: 0 <= i < |s| ==> IsDigit(s[i])
    ensures DecimalValue(s) == n
    ensures s[0] == '0' ==> n == 0
    ensures n < 10 <==> |s| == 1
  {
    if n < 10 then
      var s := [DigitChar(n)];
      assert s[..0] == [];
      s
    else
      var front := NatToString(n / 10);
      var s := front + [DigitChar(n % 10)];
      assert s[..|s| - 1] == front;
      s
  }

  /** Different numbers are written differently: reading the text back
      gives the number. */
  lemma NatToStringInjective(a: nat, b: nat)
    requires NatToString(a) == NatToString(b)
    ensures a == b
  {
    assert a == DecimalValue(NatToString(a)) == DecimalValue(NatToString(b)) == b;
  }
}

=== FILE: types.dfy ===
/** The application's data model: content items, the filter selection and
    the option lists the filter chips offer. */
module Types {
  import opened Wrappers

  /** The closed set of content categories. */
  datatype Category = Movie | Webtoon | Novel | Anime | Drama

  /** The closed set of tiers. */
  datatype Tier = S | A | B | C

  /** The text the app writes for each category: its `category` string. */
  function CategoryName(c: Category): (name: string)
    ensures |name| > 0
  {
    match c
    case Movie => "Movie"
    case Webtoon => "Webtoon"
    case Novel => "Novel"
    case Anime => "Anime"
    case Drama => "Drama"
  }

  /** Reads a category back from its text; any other text is no category. */
  function ParseCategory(name: string): (c: Option<Category>)
    ensures c.Some? ==> CategoryName(c.value) == name
  {
    if name == "Movie" then Some(Movie)
    else if name == "Webtoon" then Some(Webtoon)
    else if name == "Novel" then Some(Novel)
    else if name == "Anime" then Some(Anime)
    else if name == "Drama" then Some(Drama)
    else None
  }

  /** Category names are exactly the five category texts: every category
      round-trips through its name. */
  lemma CategoryNameRoundTrip(c: Category)
    ensures ParseCategory(CategoryName(c)) == Some(c)
  {
  }

  /** The letter the app writes for each tier. */
  function TierName(t: Tier): (name: string)
    ensures |name| == 1
  {
    match t
    case S => "S"
    case A => "A"
    case B => "B"
    case C => "C"
  }

  /** Reads a tier back from its text; any other text is no tier. */
  function ParseTier(name: string): (t: Option<Tier>)
    ensures t.Some? ==> TierName(t.value) == name
  {
    if name == "S" then Some(S)
    else if name == "A" then Some(A)
    else if name == "B" then Some(B)
    else if name == "C" then Some(C)
    else None
  }

  lemma TierNameRoundTrip(t: Tier)
    ensures ParseTier(TierName(t)) == Some(t)
  {
  }

  /** A content item. Ratings are reals; the documented range 0 to 5 is a
      validity predicate, not part of the type, because nothing enforces it.
      Optional fields are `None` where the app leaves them undefined. */
  datatype ContentItem = ContentItem(
    id: string,
    title: string,
    category: Category,
    imageUrl: string,
    tier: Tier,
    rating: real,
    reason: Option<string>,
    description: Option<string>,
    platform: Option<seq<string>>,
    fundingAvailable: Option<bool>)

  /** The documented range of a rating. */
  predicate ValidRating(r: real) {
    0.0 <= r <= 5.0
  }

  /** The filter selection. Every field is `None` when unset; `category` is
      set by the category tabs, the other three by the chip groups. */
  datatype FilterState = FilterState(
    category: Option<Category>,
    genre: Option<string>,
    platform: Option<string>,
    mood: Option<string>)

  /** Pairwise-distinct entries. */
  predicate Distinct<T(==)>(xs: seq<T>) {
    forall i, j :: 0 <= i < j < |xs| ==> xs[i] != xs[j]
  }

  const GENRES: seq<string> :=
    ["액션", "로맨스", "스릴러", "판타지", "코미디", "SF", "호러", "드라마", "일상", "무협"]

  const PLATFORMS: seq<string> :=
    ["넷플릭스", "왓챠", "티빙", "네이버웹툰", "카카오페이지", "리디북스", "라프텔", "디즈니+"]

  const MOODS: seq<string> :=
    ["가볍게 보기 좋은", "눈물 콧물 쏙 빼는", "긴장감 넘치는", "생각하게 만드는", "설레는", "통쾌한", "기괴한", "꿈과 희망"]

  /** The option lists have the stated sizes, hold no empty option, and
      hold no option twice (chips are keyed and toggled by equality). */
  lemma OptionListsWellFormed()
    ensures |GENRES| == 10 && |PLATFORMS| == 8 && |MOODS| == 8
    ensures Distinct(GENRES) && Distinct(PLATFORMS) && Distinct(MOODS)
    ensures forall i :: 0 <= i < |GENRES| ==> GENRES[i] != ""
    ensures forall i :: 0 <= i < |PLATFORMS| ==> PLATFORMS[i] != ""
    ensures forall i :: 0 <= i < |MOODS| ==> MOODS[i] != ""
  {
  }
}

=== FILE: uri.dfy ===
/** `encodeURIComponent`, as the ECMAScript standard defines it: every
    character outside the unreserved set is written as the percent-escaped
    bytes of its UTF-8 encoding, with upper-case hexadecimal digits. */
module Uri {

  /** The characters `encodeURIComponent` leaves as they are:
      ASCII letters, digits and  - _ . ! ~ * ' ( ) */
  predicate IsUnreserved(c: char) {
    ('A' <= c <= 'Z') || ('a' <= c <= 'z') || ('0' <= c <= '9')
    || c == '-' || c == '_' || c == '.' || c == '!' || c == '~'
    || c == '*' || c == '\'' || c == '(' || c == ')'
  }

  predicate IsUpperHexDigit(c: char) {
    ('0' <= c <= '9') || ('A' <= c <= 'F')
  }

  /** A character that can appear in the output of `encodeURIComponent`. */
  predicate IsEncodedChar(c: char) {
    IsUnreserved(c) || c == '%'
  }

  function HexDigit(d: nat): (c: char)
    requires d < 16
    ensures IsUpperHexDigit(c)
  {
    if d < 10 then ('0' as int + d) as char else ('A' as int + d - 10) as char
  }

  /** The value of an upper-case hexadecimal digit. */
  function HexValue(c: char): (d: nat)
    requires IsUpperHexDigit(c)
    ensures d < 16
  {
    if c <= '9' then c as int - '0' as int else c as int - 'A' as int + 10
  }

  lemma HexDigitRoundTrip(d: nat)
    requires d < 16
    ensures HexValue(HexDigit(d)) == d
  {
  }

  /** The UTF-8 encoding of one Unicode scalar value. */
  function Utf8(c: char): (bytes: seq<nat>)
    ensures 1 <= |bytes| <= 4
    ensures forall i :: 0 <= i < |bytes| ==> bytes[i] < 256
  {
    var n := c as int;
    if n < 0x80 then [n]
    else if n < 0x800 then [0xC0 + n / 64, 0x80 + n % 64]
    else if n < 0x10000 then [0xE0 + n / 4096, 0x80 + (n / 64) % 64, 0x80 + n % 64]
    else [0xF0 + n / 262144, 0x80 + (n / 4096) % 64, 0x80 + (n / 64) % 64, 0x80 + n % 64]
  }

  /** Decodes one UTF-8 sequence back to its code point (the leading byte
      tells the length). */
  function Utf8Decode(bytes: seq<nat>): int
    requires 1 <= |bytes| <= 4
  {
    if |bytes| == 1 then bytes[0]
    else if |bytes| == 2 then (bytes[0] as int - 0xC0) * 64 + (bytes[1] as int - 0x80)
    else if |bytes| == 3 then (bytes[0] as int - 0xE0) * 4096 + (bytes[1] as int - 0x80) * 64 + (bytes[2] as int - 0x80)
    else (bytes[0] as int - 0xF0) * 262144 + (bytes[1] as int - 0x80) * 4096 + (bytes[2] as int - 0x80) * 64 + (bytes[3] as int - 0x80)
  }

  lemma DivModSplit(n: nat, d: nat)
    requires d > 0
    ensures (n / d) * d + n % d == n
  {
  }

  /** The UTF-8 bytes of a character decode back to its code point. */
  lemma Utf8RoundTrip(c: char)
    ensures Utf8Decode(Utf8(c)) == c as int
  {
    var n := c as int;
    if n >= 0x800 {
      var q := n / 64;
      DivModSplit(n, 64);
      DivModSplit(q, 64);
      assert q / 64 == n / 4096;
      if n >= 0x10000 {
        DivModSplit(q / 64, 64);
        assert (q / 64) / 64 == n / 262144;
        assert (n / 4096) % 64 == (q / 64) % 64;
      }
    }
  }

  /** `%XX` for one byte. */
  function PercentByte(b: nat): (r: string)
    requires b < 256
    ensures |r| == 3 && r[0] == '%' && IsUpperHexDigit(r[1]) && IsUpperHexDigit(r[2])
    ensures HexValue(r[1]) * 16 + HexValue(r[2]) == b
  {
    HexDigitRoundTrip(b / 16);
    HexDigitRoundTrip(b % 16);
    ['%', HexDigit(b / 16), HexDigit(b % 16)]
  }

  /** Escapes a byte sequence: the escape of byte `k` is the triple that
      starts at position `3 * k`. */
  predicate EscapesBytes(r: string, bytes: seq<nat>) {
    |r| == 3 * |bytes|
    && forall k :: 0 <= k < |bytes| ==>
         r[3 * k] == '%' && IsUpperHexDigit(r[3 * k + 1]) && IsUpperHexDigit(r[3 * k + 2])
         && HexValue(r[3 * k + 1]) * 16 + HexValue(r[3 * k + 2]) == bytes[k]
  }

  function PercentBytes(bytes: seq<nat>): (r: string)
    requires forall i :: 0 <= i < |bytes| ==> bytes[i] < 256
    ensures |r| == 3 * |bytes|
    ensures forall i :: 0 <= i < |r| ==> IsEncodedChar(r[i])
  {
    if bytes == [] then [] else PercentByte(bytes[0]) + PercentBytes(bytes[1..])
  }

  /** Each byte's escape sits at three times its position and reads back
      as the byte. */
  lemma {:induction false} PercentBytesEscapes(bytes: seq<nat>)
    requires forall i :: 0 <= i < |bytes| ==> bytes[i] < 256
    ensures EscapesBytes(PercentBytes(bytes), bytes)
  {
    if bytes != [] {
      PercentBytesEscapes(bytes[1..]);
      EscapesCons(PercentByte(bytes[0]), PercentBytes(bytes[1..]), bytes);
    }
  }

  /** The escape of the first byte followed by the escapes of the rest
      escapes the whole sequence. */
  lemma EscapesCons(head: string, rest: string, bytes: seq<nat>)
    requires |bytes| > 0 && |head| == 3 && head[0] == '%'
    requires IsUpperHexDigit(head[1]) && IsUpperHexDigit(head[2])
    requires HexValue(head[1]) * 16 + HexValue(head[2]) == bytes[0]
    requires EscapesBytes(rest, bytes[1..])
    ensures EscapesBytes(head + rest, bytes)
  {
    var r := head + rest;
    forall k | 0 <= k < |bytes|
      ensures r[3 * k] == '%' && IsUpperHexDigit(r[3 * k + 1]) && IsUpperHexDigit(r[3 * k + 2])
              && HexValue(r[3 * k + 1]) * 16 + HexValue(r[3 * k + 2]) == bytes[k]
    {
      if k > 0 {
        var j := k - 1;
        assert bytes[1..][j] == bytes[k];
        assert 3 * k == 3 * j + 3;
        assert r[3 * k] == rest[3 * j];
        assert r[3 * k + 1] == rest[3 * j + 1];
        assert r[3 * k + 2] == rest[3 * j + 2];
      }
    }
  }

  /** The encoding of one character: itself when unreserved, and otherwise
      the percent escapes of its UTF-8 bytes, in order. */
  function EncodeChar(c: char): (r: string)
    ensures |r| >= 1
    ensures forall i :: 0 <= i < |r| ==> IsEncodedChar(r[i])
    ensures IsUnreserved(c) <==> r == [c]
    ensures !IsUnreserved(c) ==> EscapesBytes(r, Utf8(c))
  {
    if IsUnreserved(c) then [c]
    else
      PercentBytesEscapes(Utf8(c));
      PercentBytes(Utf8(c))
  }

  /** `encodeURIComponent(s)`. */
  function EncodeURIComponent(s: string): (r: string)
    ensures |r| >= |s|
    ensures forall i :: 0 <= i < |r| ==> IsEncodedChar(r[i])
    ensures (forall i :: 0 <= i < |s| ==> IsUnreserved(s[i])) ==> r == s
  {
    if s == [] then [] else EncodeChar(s[0]) + EncodeURIComponent(s[1..])
  }

  /** A single character encodes as `EncodeChar` says. */
  lemma EncodeURIComponentChar(c: char)
    ensures EncodeURIComponent([c]) == EncodeChar(c)
  {
    assert [c][1..] == [];
  }

  /** Encoding works piece by piece: the encoding of a string is the
      encodings of its characters, concatenated in order. */
  lemma {:induction false} EncodeURIComponentConcat(a: string, b: string)
    ensures EncodeURIComponent(a + b) == EncodeURIComponent(a) + EncodeURIComponent(b)
    decreases |a|
  {
    if a == [] {
      assert a + b == b;
    } else {
      assert (a + b)[0] == a[0];
      assert (a + b)[1..] == a[1..] + b;
      EncodeURIComponentConcat(a[1..], b);
    }
  }
}

=== FILE: wrappers.dfy ===
/** An optional value: `None` stands for the app's `null` and `undefined`. */
module Wrappers {
  datatype Option<+T> = None | Some(value: T)
}
